=== FILE: README.md ===
# Admin console core, in Dafny

A model of the decision and arithmetic rules inside a React admin console for a
small shop (products, users, sales). The console is mostly rendering and REST
calls, but a few pure rules sit inside it, and this project states and proves them:

- **The new-sale cart** (`NewSalePage.tsx`). It is an ordered list of lines keyed by
  product id, with add, set-quantity and remove. It computes a subtotal and a
  total, and it builds the payload that registers the sale.
- **The form validators** for creating and editing users and products. Each maps
  the form's strings to one error message per field plus a validity flag. They
  share the e-mail pattern `^[^\s@]+@[^\s@]+\.[^\s@]+$` and build the payload sent
  to the API.
- **The list screens and services**. They reduce a response body (a bare array,
  `{data: …}`, `{products: …}`, `{sales: …}`, or anything else) to a list or to
  a single entity. They then filter that list by a case-insensitive search and a
  status or category selector.
- **Small decisions**: the sale status badge; the route guard (render, or
  redirect to login or to the dashboard); and the session keys in `localStorage`,
  modelled as a finite map from key to string.

Modules follow the source files. `Wrappers`, `Text`, `EmailPattern`, `Seqs` and
`Envelope` hold what several files share. `Domain` holds the entity records.
`NewSaleLaws` holds the lemmas that relate the cart operations to one another.

Modelling decisions:

- Money is `int`. `Number` and `parseFloat` are parameters of type
  `string -> Option<int>`, where `None` stands for `NaN`.
- `JSON.parse` of the stored profile is a parameter that yields `None` for a
  syntax error, `JsonNull` for `null`, or a value with an optional string `role`.
- `toLowerCase` is modelled on the ASCII letters only. White space is ECMAScript's
  WhiteSpace and LineTerminator set, which both `String.prototype.trim` and the
  regular expression class `\s` use.
- A response body is `Body<T>`: `Array`, `Record` (an object that is itself an
  entity), `Object` (any other object, as a map of keys), `Null`, or `Scalar`. A
  single-entity lookup yields `Found`, `Undefined` (element 0 of an empty
  array), `Thrown` (a `TypeError`), `Opaque` (a non-entity passed on as is, as
  the sales service does), or `Rebuilt` (a new object spread from a non-entity
  with a `price` key set, as the products service's `getById` builds).
- Password lengths are counted in UTF-16 code units, as JavaScript's `length`
  counts them.
- A product's price is `Num(n)` or `Text(s)` (a JSON string) as it arrives, or `NaN` once an
  unparsable string price has been converted by `parseFloat`.

Two behaviours of the code worth noting; the model follows the code:

- The route guard: stored profile text `"null"` parses, and reading `.role` of
  `null` throws, so the guard redirects to login. An empty stored profile also
  redirects to login, because the code tests `!userDataStr`.
- `sales.service.ts` `create`: an object body without a `data` key is passed on
  unchanged, which is the final `else` branch.

## Model

| member | source | states |
|---|---|---|
| NewSale.IndexOf | src/pages/NewSalePage/NewSalePage.tsx:91 | The first line holding the product; no earlier line holds it, and it is past the end exactly when the product is absent |
| NewSale.AddProduct | src/pages/NewSalePage/NewSalePage.tsx:90-116 | The cart's product ids gain exactly the added id; the length is kept when the product is present, otherwise one line is appended after the unchanged old lines |
| NewSale.RemoveProduct | src/pages/NewSalePage/NewSalePage.tsx:137-139 | The result is an order-preserving subsequence holding exactly the lines of other products, each as many times as in the cart, and the product is no longer in the cart |
| NewSale.UpdateQuantity | src/pages/NewSalePage/NewSalePage.tsx:118-135 | A quantity of zero or less is removal; otherwise the length and each line's product and unit price are kept, the product's line gets the new quantity with a consistent total, and every other line is unchanged |
| NewSale.Subtotal | src/pages/NewSalePage/NewSalePage.tsx:141-143 | 0 for the empty cart, and never negative when no line total is |
| NewSale.DiscountAmount | src/pages/NewSalePage/NewSalePage.tsx:147 | An unparsable discount counts as 0; otherwise it is the parsed amount |
| NewSale.Total | src/pages/NewSalePage/NewSalePage.tsx:145-149 | Total plus discount is the subtotal, with no clamping |
| NewSale.ToItems | src/pages/NewSalePage/NewSalePage.tsx:178-183 | One payload item per line, in order, carrying product id, quantity, unit price and line total |
| NewSale.ItemsSumIsSubtotal | src/pages/NewSalePage/NewSalePage.tsx:178-184 | The payload items' subtotals add up to the cart subtotal |
| NewSale.Observations | src/pages/NewSalePage/NewSalePage.tsx:187 | Absent exactly when the text is blank, else the trimmed text |
| NewSale.RegisterSale | src/pages/NewSalePage/NewSalePage.tsx:159-188 | Refused for an empty cart, then for a blank client; otherwise sent with the trimmed client name, one item per line, and subtotal, discount and total consistent with the items and with each other |
| NewSaleLaws.AddExisting | src/pages/NewSalePage/NewSalePage.tsx:91-104 | Adding a product already in the cart bumps only its line by one unit at the captured unit price; other lines and the order are unchanged |
| NewSaleLaws.AddNew | src/pages/NewSalePage/NewSalePage.tsx:105-114 | Adding a product not in the cart appends one line with quantity 1 at the product's price |
| NewSaleLaws.AddPreservesValid | src/pages/NewSalePage/NewSalePage.tsx:90-116 | Adding keeps product ids unique and every line total equal to quantity times unit price |
| NewSaleLaws.UpdatePreservesValid | src/pages/NewSalePage/NewSalePage.tsx:118-135 | Setting a quantity keeps the cart invariant |
| NewSaleLaws.RemovePreservesValid | src/pages/NewSalePage/NewSalePage.tsx:137-139 | Removing keeps the cart invariant |
| NewSaleLaws.FilterKeepsUnique | src/pages/NewSalePage/NewSalePage.tsx:138 | Filtering lines never puts a product on two lines |
| NewSaleLaws.RemovePresent | src/pages/NewSalePage/NewSalePage.tsx:137-139 | Removing the product of line k is exactly deleting line k, with the rest kept in order |
| NewSaleLaws.RemoveAbsent | src/pages/NewSalePage/NewSalePage.tsx:138 | Removing an id not in the cart changes nothing |
| NewSaleLaws.RemoveIdempotent | src/pages/NewSalePage/NewSalePage.tsx:137-139 | Removing twice is the same as removing once |
| NewSaleLaws.NonPositiveQuantityRemoves | src/pages/NewSalePage/NewSalePage.tsx:119-122 | Setting a quantity of zero or less is exactly removal |
| NewSaleLaws.SubtotalConcat | src/pages/NewSalePage/NewSalePage.tsx:141-143 | The subtotal of two carts joined is the sum of their subtotals |
| NewSaleLaws.SubtotalReplace | src/pages/NewSalePage/NewSalePage.tsx:141-143 | Replacing one line moves the subtotal by the change in that line's total |
| NewSaleLaws.SubtotalIsPriceSum | src/pages/NewSalePage/NewSalePage.tsx:141-143 | In a valid cart the subtotal is the sum of quantity times unit price |
| NewSaleLaws.BumpSubtotal | src/pages/NewSalePage/NewSalePage.tsx:97-101 | One more unit on a well-formed line adds that line's unit price to the subtotal |
| NewSaleLaws.AddExistingSubtotal | src/pages/NewSalePage/NewSalePage.tsx:93-104 | Adding a product already present raises the subtotal by its captured unit price |
| NewSaleLaws.AddNewSubtotal | src/pages/NewSalePage/NewSalePage.tsx:105-114 | Adding a new product raises the subtotal by its price |
| NewSaleLaws.UpdateSubtotal | src/pages/NewSalePage/NewSalePage.tsx:124-134 | Setting a positive quantity n moves the subtotal from the old line total to n times the unit price |
| NewSaleLaws.RemoveSubtotal | src/pages/NewSalePage/NewSalePage.tsx:137-143 | Removing a line takes exactly its total off the subtotal |
| NewSaleLaws.TotalNotClamped | src/pages/NewSalePage/NewSalePage.tsx:145-149 | A discount above the subtotal gives a negative total |
| NewSaleLaws.AddTwiceExample | src/pages/NewSalePage/NewSalePage.tsx:90-116 | Adding the same product twice gives one line with two units |
| NewSaleLaws.TwoProductsWithDiscountExample | src/pages/NewSalePage/NewSalePage.tsx:90-149 | Two products at 5000 and 3000 with discount 1000 give subtotal 8000 and total 7000 |
| Text.Trim | src/pages/AddUserPage/AddUserPage.tsx:55 | The result is an infix of the input with only white space cut at either end, and it neither starts nor ends with white space |
| Text.BlankIffAllSpace | src/pages/AddUserPage/AddUserPage.tsx:55 | A string is empty once trimmed exactly when every character is white space |
| Text.Utf16Length | src/utils/auth.ts:8 | JavaScript's `length`: between the number of characters and twice it, and equal to it exactly when no character lies outside the Basic Multilingual Plane |
| Text.Utf16LengthChar | src/utils/auth.ts:8 | One character counts two UTF-16 code units outside the Basic Multilingual Plane and one inside it |
| Text.Utf16LengthConcat | src/utils/auth.ts:8 | The length of a concatenation is the sum of the lengths, so the count is exactly one unit per BMP character plus two per astral one |
| Text.Utf16LengthExample | src/utils/auth.ts:8 | "a" followed by an emoji has length 3 |
| Text.Lower | src/features/sales/components/SalesList/SalesList.tsx:73-74 | Same length, with every ASCII capital lowered and every other character kept |
| Text.LowerIdempotent | src/features/sales/components/SalesList/SalesList.tsx:73-74 | Lowering twice is lowering once, and no ASCII capital is left |
| Text.ContainsIffOccurs | src/features/sales/components/SalesList/SalesList.tsx:73-74 | The substring scan succeeds exactly when the term occurs at some position |
| Text.ContainsEmpty | src/features/sales/components/SalesList/SalesList.tsx:72-74 | The empty term occurs in every string |
| EmailPattern.IndexOfAt | src/pages/AddUserPage/AddUserPage.tsx:63 | The position of the first '@', or the length when there is none |
| EmailPattern.IsEmailIffMatches | src/pages/AddUserPage/AddUserPage.tsx:63 | The scan accepts exactly the strings of the form local@host.tld where each part is non-empty with no white space and no '@' |
| EmailPattern.RejectsExample | src/pages/AddUserPage/AddUserPage.tsx:63-65 | An address with no dot after the '@' is rejected |
| Seqs.Filter | src/features/sales/components/SalesList/SalesList.tsx:71-79 | The kept elements form an order-preserving subsequence; an element is kept exactly when it passes, and as often as it occurs |
| Envelope.UnderKeys | src/services/products.service.ts:34-37 | The result is empty or is the array under one of the keys |
| Envelope.Unwrap | src/services/products.service.ts:30-38 | A bare array is the list, nulls, scalars and entities give [], and otherwise the list is the array under one of the keys |
| Envelope.WrapUnwrap | src/services/products.service.ts:32-37 | A list wrapped bare or under any recognised key unwraps to itself |
| Envelope.FirstPresentDecides | src/services/products.service.ts:34-37 | The first key present decides the list, even when it holds no array |
| Envelope.FirstOrSelf | src/services/products.service.ts:49 | Element 0 of an array body (undefined when empty), else the body itself |
| ProductsService.NormalizePrice | src/services/products.service.ts:41-44 | Only the price changes: a string price becomes its parsed number (NaN when unparsable), and any other price is left as is |
| ProductsService.NormalizePriceIdempotent | src/services/products.service.ts:43 | Normalising twice is normalising once |
| ProductsService.GetAll | src/services/products.service.ts:26-45 | Same length and order as the unwrapped list, each element its price-normalised counterpart (a string price parsed, any other price kept), no string price left, and [] for non-list bodies |
| ProductsService.GetAllShapes | src/services/products.service.ts:32-37 | A list with numeric prices comes back unchanged, bare or under `data` or `products`, and `data` wins over `products` |
| ProductsService.DataNotArrayGivesEmpty | src/services/products.service.ts:34-35 | A non-array `data` gives [] even when `products` holds an array |
| ProductsService.GetById | src/services/products.service.ts:47-54 | Throws exactly for a null body or an empty array; the first element of an array or the entity itself comes back with its price normalised; any other body is rebuilt as a new object, never passed on as is |
| ProductsService.GetByIdShapes | src/services/products.service.ts:49-53 | A product sent bare or as the head of an array comes back with its price normalised, and unchanged when its price is already no string |
| SalesService.AsSale | src/services/sales.service.ts:62 | An entity body is the sale; anything else is passed on unchanged |
| SalesService.GetById | src/services/sales.service.ts:46-50 | Element 0 of an array body (undefined when empty), else the body itself |
| SalesService.GetByIdShapes | src/services/sales.service.ts:48 | A sale sent bare or as the head of an array is recovered, and an empty array gives undefined |
| SalesService.Create | src/services/sales.service.ts:52-66 | The value under `data` of an object body, else element 0 of an array body, else the body as is |
| SalesService.CreateShapes | src/services/sales.service.ts:57-62 | The created sale is recovered when sent bare, as the head of an array, or under `data` |
| SalesService.CreateDependsOnlyOnData | src/services/sales.service.ts:57-58 | For an object body only the `data` value matters |
| SalesList.FetchSales | src/features/sales/components/SalesList/SalesList.tsx:25-31 | A bare array as is; else the array under `data`, then under `sales`, with a non-array giving []; anything else gives [] |
| SalesList.FilterSales | src/features/sales/components/SalesList/SalesList.tsx:71-79 | An order-preserving subsequence, keeping a sale exactly when it passes both the search and the status filter |
| SalesList.EmptySearchShowsAll | src/features/sales/components/SalesList/SalesList.tsx:72-76 | An empty search with "Todos" shows every sale |
| SalesList.SearchIgnoresTermCase | src/features/sales/components/SalesList/SalesList.tsx:73-74 | Lower-casing the search term changes nothing |
| ProductList.FilterProducts | src/features/products/components/ProductList/ProductList.tsx:50-59 | A missing list gives []; otherwise an order-preserving subsequence, keeping a product exactly when it passes the search and the category |
| ProductList.UncategorisedOnlyUnderAll | src/features/products/components/ProductList/ProductList.tsx:55-56 | A product with no category is hidden by every category but "all" |
| ProductList.EmptySearchShowsAll | src/features/products/components/ProductList/ProductList.tsx:51-56 | An empty search under "all" shows every product |
| UsersList.FetchUsers | src/features/users/components/UsersList/UsersList.tsx:22-30 | A bare array as is, the array under `data`, and [] for a non-array `data` or any other body |
| UsersList.FilterUsers | src/features/users/components/UsersList/UsersList.tsx:76-85 | An order-preserving subsequence, keeping a user exactly when the term is in the name, e-mail or role, ignoring case |
| UsersList.EmptySearchKeepsAll | src/features/users/components/UsersList/UsersList.tsx:76-85 | An empty search keeps every user, in order |
| UsersList.RoleSearchFindsUser | src/features/users/components/UsersList/UsersList.tsx:81 | Searching for a user's role always finds that user |
| SaleCard.StatusBadge | src/features/sales/components/SaleCard/SaleCard.tsx:33-44 | Each of the three known statuses, in any letter case, gets its Spanish caption and class; any other status keeps its own text with the default class |
| SaleCard.DefaultIffUnknown | src/features/sales/components/SaleCard/SaleCard.tsx:41-42 | The default class is used exactly for unknown statuses, whose caption is the status as written |
| SaleCard.KnownDependsOnlyOnLowered | src/features/sales/components/SaleCard/SaleCard.tsx:34-40 | Statuses that lower-case to the same known value get the same badge |
| SaleCard.AnyCaseExamples | src/features/sales/components/SaleCard/SaleCard.tsx:34-42 | "COMPLETED" and "Pending" are recognised, and "refunded" falls to the default |
| Storage.GetOrEmpty | src/utils/auth.ts:31-32 | The stored value, or "" when the key is absent |
| AuthUtils.Login | src/utils/auth.ts:6-15 | Refused, with storage untouched, exactly when the e-mail is empty or the password has fewer than six UTF-16 code units. Otherwise it throws (the `btoa` of the token) exactly when the e-mail has a character above U+00FF, leaving storage untouched; else it succeeds, adding the token and e-mail keys and keeping every other key |
| AuthUtils.NonLatin1EmailThrows | src/utils/auth.ts:8-9 | An e-mail with a CJK character and a valid password makes login throw with storage unchanged |
| AuthUtils.Logout | src/utils/auth.ts:18-21 | Removes exactly the token and e-mail keys |
| AuthUtils.AstralPasswordExample | src/utils/auth.ts:8 | Three emoji make a password of length 6 and log in; two do not |
| AuthUtils.GetCurrentUser | src/utils/auth.ts:29-34 | The stored e-mail and token, with "" for whichever is missing |
| AuthUtils.LoginThenCurrentUser | src/utils/auth.ts:6-34 | After a successful login the session is authenticated and reports the stored e-mail and token |
| AuthUtils.LogoutClearsSession | src/utils/auth.ts:18-34 | After logout nobody is authenticated, the current user is blank, and logging out again changes nothing |
| AuthUtils.LogoutUndoesLogin | src/utils/auth.ts:6-21 | Logging out after a login leaves every other key as before the login |
| AuthService.Logout | src/services/auth.service.ts:49-53 | Removes exactly the token, e-mail and name keys |
| AuthService.GetCurrentUser | src/services/auth.service.ts:65-79 | Null exactly when the token or e-mail is missing or empty; otherwise that e-mail and token, with a name exactly when one is stored non-empty |
| AuthService.LogoutClearsSession | src/services/auth.service.ts:49-79 | After logout there is no current user and no session |
| AuthService.CurrentUserAgreesWithUtils | src/services/auth.service.ts:58-79 | A current user implies an authenticated session, and the development helper reads the same e-mail and token |
| AuthService.LogoutSubsumesUtils | src/services/auth.service.ts:49-53 | Combined with the helper's logout in either order, this logout gives the same result as this logout alone |
| AuthService.UtilsLoginYieldsUser | src/services/auth.service.ts:65-79 | A helper login with a non-empty token and no stored name gives a current user with that e-mail and token and no name |
| ProtectedRoute.Guard | src/components/ProtectedRoute/ProtectedRoute.tsx:13-40 | No token means login. The dashboard exactly for an admin route whose readable profile's role is not "admin". Render exactly for an authenticated open route, or a role route with a readable profile that is either a user route or has role "admin" |
| ProtectedRoute.StricterRolesRenderLess | src/components/ProtectedRoute/ProtectedRoute.tsx:20-40 | Whatever an admin route renders a user route renders, and whatever a user route renders an open route renders |
| ProtectedRoute.NoTokenAlwaysLogin | src/components/ProtectedRoute/ProtectedRoute.tsx:13-17 | Without a token the guard sends to login, whatever the profile and its parse |
| ProtectedRoute.LoginOpensUnrestrictedRoutes | src/components/ProtectedRoute/ProtectedRoute.tsx:13-20 | After a successful development login every route without a role renders |
| FormRules.NameError | src/pages/AddUserPage/AddUserPage.tsx:55-58 | No error exactly when the name has a non-white-space character, else "name required" |
| FormRules.EmailError | src/pages/AddUserPage/AddUserPage.tsx:60-66 | "required" exactly when blank, no error exactly when the pattern matches, otherwise "invalid" |
| FormRules.PriceError | src/pages/AddProductPage/AddProductPage.tsx:57-63 | "required" exactly when empty, no error exactly when it reads as a number above zero, otherwise "must be above zero" |
| UserForm.HandleChange | src/pages/AddUserPage/AddUserPage.tsx:26-43 | The change handler of both user pages (the edit page's is EditUserPage.tsx:60-85). Stores the new value in its field only (a boolean for the checkbox), clears that field's error, and leaves every other error as it was |
| UserForm.ClearingLastError | src/pages/AddUserPage/AddUserPage.tsx:38-42 | Editing the only field in error leaves the form with no errors |
| AddUser.Validate | src/pages/AddUserPage/AddUserPage.tsx:45-86 | Valid exactly when no message is set, exactly when the name is non-blank, the e-mail matches, the password has six or more UTF-16 code units and the confirmation equals it; gives each field's message |
| AddUser.Submit | src/pages/AddUserPage/AddUserPage.tsx:88-102 | Sends exactly for a valid form, with name, e-mail, password, role and active flag, and without the confirmation |
| AddUser.SubmittedUserIsWellFormed | src/pages/AddUserPage/AddUserPage.tsx:45-102 | What is sent has a well-shaped e-mail and a password of at least six UTF-16 code units |
| AddUser.ShortAndMismatchedExample | src/pages/AddUserPage/AddUserPage.tsx:68-82 | A short, mismatched password gets both the length and the mismatch message |
| EditUser.Load | src/pages/EditUserPage/EditUserPage.tsx:38-45 | The user's fields, with both password boxes empty |
| EditUser.Validate | src/pages/EditUserPage/EditUserPage.tsx:87-128 | Valid exactly when the name is non-blank, the e-mail matches, and the password is empty or has six or more UTF-16 code units and is confirmed. The length and mismatch errors arise independently, and only for a typed password |
| EditUser.Submit | src/pages/EditUserPage/EditUserPage.tsx:130-148 | Sends exactly for a valid form with a route id, copying name, e-mail, role and flag, and the password exactly when one was typed |
| EditUser.EmptyPasswordIgnoresConfirmation | src/pages/EditUserPage/EditUserPage.tsx:113-124 | With an empty password the confirmation box does not affect validation |
| EditUser.TypedPasswordAgreesWithCreate | src/pages/EditUserPage/EditUserPage.tsx:87-128 | With a typed password, editing accepts exactly the forms creating accepts |
| EditUser.LoadThenSubmit | src/pages/EditUserPage/EditUserPage.tsx:38-148 | Loading a valid user and saving at once sends that user back without a password |
| AddProduct.Validate | src/pages/AddProductPage/AddProductPage.tsx:38-67 | Valid exactly when no message is set, exactly when the name is non-blank, a category is chosen and the price reads as a number above zero |
| AddProduct.Submit | src/pages/AddProductPage/AddProductPage.tsx:69-81 | Sends exactly for a valid form: name, category, the positive parsed price and status "active" |
| EditProduct.Load | src/pages/EditProductPage/EditProductPage.tsx:37-44 | Name and flag copied, price and stock as text (a numeric price through `toString`, a string price as is, `NaN` as "NaN"), and a missing description or SKU as "" |
| EditProduct.StockError | src/pages/EditProductPage/EditProductPage.tsx:95-98 | No error exactly when the stock is empty or reads as a number of zero or more |
| EditProduct.Validate | src/pages/EditProductPage/EditProductPage.tsx:73-102 | Valid exactly when no message is set, exactly when the name is non-blank, the price is a number above zero and the stock rule holds |
| EditProduct.NullIfEmpty | src/pages/EditProductPage/EditProductPage.tsx:113 | Null exactly for the empty text, else the text |
| EditProduct.Submit | src/pages/EditProductPage/EditProductPage.tsx:104-119 | Sends exactly for a valid form with a route id; empty description and SKU become null, the price is the positive parsed number, and the stock is the parsed stock |
| EditProduct.EmptyStockSentAsZero | src/pages/EditProductPage/EditProductPage.tsx:116 | Where `Number("")` is 0, an emptied stock box is sent as stock 0 |
| EditProduct.LoadThenSubmit | src/pages/EditProductPage/EditProductPage.tsx:37-119 | Loading a product and saving at once sends its own fields back, with an empty description or SKU as null |

## Left out

- NewSale.AddProduct: requires a numeric price. With a `NaN` price the source would carry `NaN` through the line total and the subtotal, which is floating-point arithmetic and is not modelled.
- Floating point in general: money and parsed numbers are integers, and `Number`/`parseFloat` are abstract parameters. `EditProduct.EmptyStockSentAsZero` takes `Number("") == 0` as a hypothesis for the same reason.
- `Number.prototype.toString` used when loading a product is the parameter `show`.
- Text.Lower: only the ASCII letters are lowered; JavaScript's full Unicode case mapping is not modelled.
- ProductsService.GetById: for a body that is neither an entity nor an array, the model records only that a new object is spread from it with a `price` key set; the keys of that object are not modelled.
- The catalogue loading and the product search on the new-sale page, and the product pages' own `handleChange`: these are not among the rules modelled.
- Rendering, navigation, toasts, logging, React state plumbing and fetch-on-mount error handling: user interface, not behaviour.
- All HTTP I/O: the services are modelled only as the step that unwraps and normalises a response body. The network `login` and `verifyToken` of `auth.service.ts` and the thin wrappers of `users.service.ts` are left out.
- The value of the mock token `btoa(email:Date.now())` in `utils/auth.ts` is clock-dependent, so it is a parameter of `AuthUtils.Login`. Whether `btoa` throws depends only on the e-mail, and that is modelled.
- Currency and date formatting, the sale date and turn number: locale, clock and randomness.
- `isAuthenticated` of both auth modules is the one predicate `Storage.IsAuthenticated` (key presence). It is stated through the logout and login lemmas rather than a row of its own.

=== FILE: add_product.dfy ===
/** The create-product form (AddProductPage.tsx): validation and the payload it sends. */
module AddProduct {
  import opened Wrappers
  import opened Text
  import opened Domain
  import opened FormRules

  datatype Form = Form(name: string, category: string, price: string)

  datatype Errors = Errors(name: string, category: string, price: string)

  datatype Validation = Validation(errors: Errors, valid: bool)

  const CategoryRequired: string := "La categoría es requerida"

  /** The status every new product is created with. */
  const ActiveStatus: string := "active"

  datatype NewProduct = NewProduct(name: string, category: string, price: int, status: string)

  /** `validateForm`: name, category and price are all checked, and the form is
      valid exactly when no message is set. */
  function Validate(f: Form, number: Parser): (v: Validation)
    ensures v.valid <==> v.errors == Errors("", "", "")
    ensures v.valid <==>
              && (exists i | 0 <= i < |f.name| :: !IsSpace(f.name[i]))
              && f.category != ""
              && f.price != "" && number(f.price).Some? && number(f.price).value > 0
    ensures v.errors.name == NameError(f.name)
    ensures v.errors.category == (if f.category == "" then CategoryRequired else "")
    ensures v.errors.price == PriceError(f.price, number)
  {
    var errors := Errors(NameError(f.name), if f.category == "" then CategoryRequired else "", PriceError(f.price, number));
    Validation(errors, errors == Errors("", "", ""))
  }

  /** `handleSubmit`: nothing is sent for an invalid form; otherwise the name,
      the chosen category, the price as a number and status "active". */
  function Submit(f: Form, number: Parser): (r: Option<NewProduct>)
    ensures r.Some? <==> Validate(f, number).valid
    ensures r.Some? ==> r.value.name == f.name && r.value.category == f.category && r.value.status == ActiveStatus
    ensures r.Some? ==> number(f.price) == Some(r.value.price) && r.value.price > 0
  {
    if !Validate(f, number).valid then None
    else Some(NewProduct(f.name, f.category, number(f.price).value, ActiveStatus))
  }
}

=== FILE: add_user.dfy ===
/** The create-user form (AddUserPage.tsx): validation and the payload it sends. */
module AddUser {
  import opened Wrappers
  import opened Text
  import opened EmailPattern
  import opened UserForm
  import opened FormRules

  const PasswordRequired: string := "La contraseña es requerida"
  const ConfirmRequired: string := "Debes confirmar la contraseña"

  /** The body sent to create a user; the confirmation is not part of it. */
  datatype NewUser = NewUser(name: string, email: string, password: string, role: string, isActive: bool)

  /** `validateForm`: every field is checked, none short-circuits another, and
      the form is valid exactly when no message is set. */
  function Validate(f: Form): (v: Validation)
    ensures v.valid <==> v.errors == NoErrors
    ensures v.valid <==>
              && (exists i | 0 <= i < |f.name| :: !IsSpace(f.name[i]))
              && IsEmail(f.email)
              && Utf16Length(f.password) >= MinPasswordLength
              && f.confirmPassword == f.password
    ensures v.errors.name == NameError(f.name)
    ensures v.errors.email == EmailError(f.email)
    ensures v.errors.password ==
              if f.password == "" then PasswordRequired
              else if Utf16Length(f.password) < MinPasswordLength then PasswordTooShort
              else ""
    ensures v.errors.confirmPassword ==
              if f.confirmPassword == "" then ConfirmRequired
              else if f.confirmPassword != f.password then PasswordMismatch
              else ""
  {
    var passwordError :=
      if f.password == "" then PasswordRequired
      else if Utf16Length(f.password) < MinPasswordLength then PasswordTooShort
      else "";
    var confirmError :=
      if f.confirmPassword == "" then ConfirmRequired
      else if f.password != f.confirmPassword then PasswordMismatch
      else "";
    var errors := Errors(NameError(f.name), EmailError(f.email), passwordError, confirmError);
    Validation(errors, errors == NoErrors)
  }

  /** `handleSubmit`: nothing is sent for an invalid form; otherwise the form's
      fields without the confirmation. */
  function Submit(f: Form): (r: Option<NewUser>)
    ensures r.Some? <==> Validate(f).valid
    ensures r.Some? ==> r.value == NewUser(f.name, f.email, f.password, f.role, f.isActive)
  {
    if Validate(f).valid then Some(NewUser(f.name, f.email, f.password, f.role, f.isActive)) else None
  }

  /** Whatever is sent carries a well-shaped e-mail and a password of at least six UTF-16 code units. */
  lemma SubmittedUserIsWellFormed(f: Form)
    requires Submit(f).Some?
    ensures IsEmail(Submit(f).value.email)
    ensures Utf16Length(Submit(f).value.password) >= MinPasswordLength
  {
  }

  /** A mismatched confirmation is reported even when the password is too short. */
  lemma ShortAndMismatchedExample()
    ensures Validate(Form("Ana", "ana@tienda.co", "abc", "abd", "user", true)).errors.password == PasswordTooShort
    ensures Validate(Form("Ana", "ana@tienda.co", "abc", "abd", "user", true)).errors.confirmPassword == PasswordMismatch
  {
  }
}

=== FILE: auth_service.dfy ===
/** The session part of the authentication service (auth.service.ts) over the storage map. */
module AuthService {
  import opened Wrappers
  import opened Storage
  import AuthUtils

  datatype AuthUser = AuthUser(email: string, token: string, name: Option<string>)

  /** `logout()`: removes the token, the e-mail and the name and no other key. */
  function Logout(store: Store): (r: Store)
    ensures r.Keys == store.Keys - {TokenKey, EmailKey, NameKey}
    ensures forall k | k in r :: r[k] == store[k]
  {
    store - {TokenKey, EmailKey, NameKey}
  }

  /** `getCurrentUser()`: null unless both the token and the e-mail are stored
      and non-empty; the name is left undefined when missing or empty. */
  function GetCurrentUser(store: Store): (r: Option<AuthUser>)
    ensures r.None? <==> !HasValue(store, TokenKey) || !HasValue(store, EmailKey)
    ensures r.Some? ==> r.value.email == store[EmailKey] && r.value.token == store[TokenKey]
    ensures r.Some? ==> (r.value.name.Some? <==> HasValue(store, NameKey))
    ensures r.Some? && r.value.name.Some? ==> r.value.name.value == store[NameKey]
  {
    if !HasValue(store, TokenKey) || !HasValue(store, EmailKey) then None
    else
      var name := if HasValue(store, NameKey) then Some(store[NameKey]) else None;
      Some(AuthUser(store[EmailKey], store[TokenKey], name))
  }

  /** After logout nobody is signed in. */
  lemma LogoutClearsSession(store: Store)
    ensures GetCurrentUser(Logout(store)) == None
    ensures !IsAuthenticated(Logout(store))
  {
  }

  /** A current user implies an authenticated session, and the development
      helper reads the same e-mail and token. */
  lemma CurrentUserAgreesWithUtils(store: Store)
    requires GetCurrentUser(store).Some?
    ensures IsAuthenticated(store)
    ensures AuthUtils.GetCurrentUser(store).email == GetCurrentUser(store).value.email
    ensures AuthUtils.GetCurrentUser(store).token == GetCurrentUser(store).value.token
  {
  }

  /** This logout subsumes the helper's: applying both is applying this one. */
  lemma LogoutSubsumesUtils(store: Store)
    ensures Logout(AuthUtils.Logout(store)) == Logout(store)
    ensures AuthUtils.Logout(Logout(store)) == Logout(store)
  {
  }

  /** A helper login with a non-empty token and no stored name yields a current
      user with that e-mail and token and no name. */
  lemma UtilsLoginYieldsUser(store: Store, email: string, password: string, token: string)
    requires AuthUtils.Login(store, email, password, token).Succeeded() && token != ""
    requires NameKey !in store
    ensures GetCurrentUser(AuthUtils.Login(store, email, password, token).store) == Some(AuthUser(email, token, None))
  {
  }
}

=== FILE: auth_utils.dfy ===
/** The development login helper (utils/auth.ts) over the storage map. */
module AuthUtils {
  import opened Text
  import opened Storage

  /** What `login` does: it returns `true` or `false`, with the storage after
      the call, or it throws with the storage untouched. */
  datatype LoginOutcome = Returned(ok: bool, store: Store) | Threw(store: Store)
  {
    predicate Succeeded() {
      Returned? && ok
    }
  }

  datatype CurrentUser = CurrentUser(email: string, token: string)

  /** Every character fits in one byte, so `btoa` can encode the text. */
  predicate IsLatin1(s: string) {
    forall i | 0 <= i < |s| :: s[i] as int <= 0xFF
  }

  /** Whether the credentials pass the development check. */
  predicate Acceptable(email: string, password: string) {
    email != "" && Utf16Length(password) >= 6
  }

  /** `login(email, password)`: accepts a non-empty e-mail and a password of at
      least 6 UTF-16 code units. It then encodes `email:time` with `btoa`, which
      throws for an e-mail with a character above U+00FF, before anything is
      stored. Otherwise it stores `token` (the encoded mock token) and the
      e-mail. Refused credentials leave storage untouched. */
  function Login(store: Store, email: string, password: string, token: string): (r: LoginOutcome)
    ensures r.Threw? <==> Acceptable(email, password) && !IsLatin1(email)
    ensures r.Succeeded() <==> Acceptable(email, password) && IsLatin1(email)
    ensures r.Returned? && !r.ok <==> !Acceptable(email, password)
    ensures r.Succeeded() ==> r.store.Keys == store.Keys + {TokenKey, EmailKey}
    ensures r.Succeeded() ==> r.store[TokenKey] == token && r.store[EmailKey] == email
    ensures r.Succeeded() ==> forall k | k in store && k != TokenKey && k != EmailKey :: r.store[k] == store[k]
    ensures !r.Succeeded() ==> r.store == store
  {
    if !Acceptable(email, password) then Returned(false, store)
    else if !IsLatin1(email) then Threw(store)
    else Returned(true, store[TokenKey := token][EmailKey := email])
  }

  /** An e-mail outside Latin-1 passes the check but makes `btoa` throw. */
  lemma NonLatin1EmailThrows(store: Store, token: string)
    ensures Login(store, "\U{7528}@x.co", "abcdef", token) == Threw(store)
  {
    assert !IsLatin1("\U{7528}@x.co") by {
      assert "\U{7528}@x.co"[0] as int > 0xFF;
    }
    assert Utf16Length("abcdef") == 6;
  }

  /** `logout()`: removes the token and the e-mail and no other key. */
  function Logout(store: Store): (r: Store)
    ensures r.Keys == store.Keys - {TokenKey, EmailKey}
    ensures forall k | k in r :: r[k] == store[k]
  {
    store - {TokenKey, EmailKey}
  }

  /** `getCurrentUser()`: the stored e-mail and token, "" for whichever is missing. */
  function GetCurrentUser(store: Store): (r: CurrentUser)
    ensures r.email == GetOrEmpty(store, EmailKey)
    ensures r.token == GetOrEmpty(store, TokenKey)
  {
    CurrentUser(GetOrEmpty(store, EmailKey), GetOrEmpty(store, TokenKey))
  }

  /** The length rule counts UTF-16 code units, as JavaScript's `length` does:
      three emoji make a password of length 6, and two of them fall short. */
  lemma AstralPasswordExample(store: Store, token: string)
    ensures Login(store, "ana@tienda.co", "\U{1F600}\U{1F600}\U{1F600}", token).Succeeded()
    ensures Login(store, "ana@tienda.co", "\U{1F600}\U{1F600}", token) == Returned(false, store)
  {
    assert "\U{1F600}\U{1F600}\U{1F600}"[1..] == "\U{1F600}\U{1F600}";
    assert "\U{1F600}\U{1F600}"[1..] == "\U{1F600}";
    assert "\U{1F600}"[1..] == "";
  }

  /** A successful login authenticates and reports back the credentials it stored. */
  lemma LoginThenCurrentUser(store: Store, email: string, password: string, token: string)
    requires Login(store, email, password, token).Succeeded()
    ensures IsAuthenticated(Login(store, email, password, token).store)
    ensures GetCurrentUser(Login(store, email, password, token).store) == CurrentUser(email, token)
  {
  }

  /** After logout the session is gone and the current user is all blanks. */
  lemma LogoutClearsSession(store: Store)
    ensures !IsAuthenticated(Logout(store))
    ensures GetCurrentUser(Logout(store)) == CurrentUser("", "")
    ensures Logout(Logout(store)) == Logout(store)
  {
  }

  /** Logging out undoes a login: every key outside the session is as before. */
  lemma LogoutUndoesLogin(store: Store, email: string, password: string, token: string)
    ensures Logout(Login(store, email, password, token).store) == Logout(store)
  {
  }
}

=== FILE: domain.dfy ===
/**
 * The entities the console receives from the API (product.types.ts,
 * sale.types.ts, user.type.ts), with money as whole pesos.
 */
module Domain {
  import opened Wrappers

  /** A product price as it arrives: a JSON number, a decimal string the API
      sometimes sends instead, or `NaN` once an unparsable string is converted. */
  datatype Price = Num(amount: int) | Text(raw: string) | NaN

  datatype Product = Product(
    id: string,
    name: string,
    description: Option<string>,
    price: Price,
    stock: int,
    sku: Option<string>,
    isActive: bool,
    category: Option<string>)

  datatype Sale = Sale(
    id: string,
    saleNumber: string,
    userId: string,
    total: int,
    status: string,
    saleDate: string)

  datatype User = User(
    id: string,
    email: string,
    name: string,
    role: string,
    isActive: bool)

  /** JavaScript's `Number(s)` or `parseFloat(s)`: the integer value, or `None` for `NaN`. */
  type Parser = string -> Option<int>
}

=== FILE: edit_product.dfy ===
/** The edit-product form (EditProductPage.tsx): loading, validation and the update payload. */
module EditProduct {
  import opened Wrappers
  import opened Text
  import opened Domain
  import opened FormRules

  datatype Form = Form(name: string, description: string, price: string, stock: string, sku: string, isActive: bool)

  datatype Errors = Errors(name: string, price: string, stock: string)

  datatype Validation = Validation(errors: Errors, valid: bool)

  const StockNegative: string := "El stock debe ser un número mayor o igual a 0"

  /** The body sent to update a product. `stock` is `None` when `Number` gives `NaN`. */
  datatype ProductUpdate = ProductUpdate(
    name: string,
    description: Option<string>,
    price: int,
    stock: Option<int>,
    sku: Option<string>,
    isActive: bool)

  /** `value.toString()` of a price: the digits of a number, the text of a
      string, "NaN" for `NaN`. */
  function PriceText(p: Price, show: int -> string): string {
    match p
    case Num(n) => show(n)
    case Text(s) => s
    case NaN => "NaN"
  }

  /** `loadProduct`: the product's fields as form text; a missing (or empty)
      description or SKU becomes "". `show` is `Number.prototype.toString`. */
  function Load(p: Product, show: int -> string): (f: Form)
    ensures f.name == p.name && f.isActive == p.isActive
    ensures f.description == (if p.description.Some? then p.description.value else "")
    ensures f.sku == (if p.sku.Some? then p.sku.value else "")
    ensures p.price.Num? ==> f.price == show(p.price.amount)
    ensures p.price.Text? ==> f.price == p.price.raw
    ensures p.price.NaN? ==> f.price == "NaN"
    ensures f.stock == show(p.stock)
  {
    Form(p.name, p.description.GetOr(""), PriceText(p.price, show), show(p.stock), p.sku.GetOr(""), p.isActive)
  }

  /** The stock rule: an empty box is accepted; otherwise a number of zero or more. */
  function StockError(stock: string, number: Parser): (r: string)
    ensures r == "" <==> stock == "" || (number(stock).Some? && number(stock).value >= 0)
    ensures r == "" || r == StockNegative
  {
    if stock != "" && (number(stock).None? || number(stock).value < 0) then StockNegative else ""
  }

  /** `validateForm`: name, price and stock are all checked, and the form is
      valid exactly when no message is set. */
  function Validate(f: Form, number: Parser): (v: Validation)
    ensures v.valid <==> v.errors == Errors("", "", "")
    ensures v.valid <==>
              && (exists i | 0 <= i < |f.name| :: !IsSpace(f.name[i]))
              && f.price != "" && number(f.price).Some? && number(f.price).value > 0
              && (f.stock == "" || (number(f.stock).Some? && number(f.stock).value >= 0))
    ensures v.errors.name == NameError(f.name)
    ensures v.errors.price == PriceError(f.price, number)
    ensures v.errors.stock == StockError(f.stock, number)
  {
    var errors := Errors(NameError(f.name), PriceError(f.price, number), StockError(f.stock, number));
    Validation(errors, errors == Errors("", "", ""))
  }

  /** `value || null` on a text box. */
  function NullIfEmpty(s: string): (r: Option<string>)
    ensures r.None? <==> s == ""
    ensures r.Some? ==> r.value == s
  {
    if s == "" then None else Some(s)
  }

  /** `handleSubmit`: nothing is sent for an invalid form or a missing route id;
      empty description and SKU become null and price and stock become numbers. */
  function Submit(f: Form, id: Option<string>, number: Parser): (r: Option<ProductUpdate>)
    ensures r.Some? <==> Validate(f, number).valid && id.Some? && id.value != ""
    ensures r.Some? ==> r.value.name == f.name && r.value.isActive == f.isActive
    ensures r.Some? ==> (r.value.description.None? <==> f.description == "")
    ensures r.Some? ==> (r.value.sku.None? <==> f.sku == "")
    ensures r.Some? ==> number(f.price) == Some(r.value.price) && r.value.price > 0
    ensures r.Some? ==> r.value.stock == number(f.stock)
    ensures r.Some? && f.stock != "" ==> r.value.stock.Some? && r.value.stock.value >= 0
  {
    if !Validate(f, number).valid || id.None? || id.value == "" then None
    else
      Some(ProductUpdate(f.name, NullIfEmpty(f.description), number(f.price).value,
                         number(f.stock), NullIfEmpty(f.sku), f.isActive))
  }

  /** `Number("")` is 0, so an emptied stock box is sent as stock 0. */
  lemma EmptyStockSentAsZero(f: Form, id: Option<string>, number: Parser)
    requires number("") == Some(0) && f.stock == ""
    requires Submit(f, id, number).Some?
    ensures Submit(f, id, number).value.stock == Some(0)
  {
  }

  /** Loading a product with a positive numeric price and saving at once sends
      the product's own fields back, provided `Number` reads back what
      `toString` wrote; an empty description or SKU goes back as null. */
  lemma LoadThenSubmit(p: Product, id: string, show: int -> string, number: Parser)
    requires p.price.Num? && p.price.amount > 0 && p.stock >= 0 && id != ""
    requires show(p.price.amount) != ""
    requires number(show(p.price.amount)) == Some(p.price.amount)
    requires number(show(p.stock)) == Some(p.stock)
    requires exists i | 0 <= i < |p.name| :: !IsSpace(p.name[i])
    ensures Submit(Load(p, show), Some(id), number)
            == Some(ProductUpdate(
                 p.name,
                 if p.description == Some("") then None else p.description,
                 p.price.amount,
                 Some(p.stock),
                 if p.sku == Some("") then None else p.sku,
                 p.isActive))
  {
  }
}

=== FILE: edit_user.dfy ===
/** The edit-user form (EditUserPage.tsx): loading, validation and the update payload. */
module EditUser {
  import opened Wrappers
  import opened Text
  import opened EmailPattern
  import opened Domain
  import opened UserForm
  import opened FormRules
  import AddUser

  /** The body sent to update a user; the password only when a new one was typed. */
  datatype UserUpdate = UserUpdate(name: string, email: string, role: string, isActive: bool, password: Option<string>)

  /** `loadUser`: the stored user's fields, with both password boxes empty. */
  function Load(u: User): (f: Form)
    ensures f.password == "" && f.confirmPassword == ""
    ensures f.name == u.name && f.email == u.email && f.role == u.role && f.isActive == u.isActive
  {
    Form(u.name, u.email, "", "", u.role, u.isActive)
  }

  /** `validateForm`: the password rules apply only when a new password is typed,
      and then the length and the confirmation are checked independently. */
  function Validate(f: Form): (v: Validation)
    ensures v.valid <==> v.errors == NoErrors
    ensures v.valid <==>
              && (exists i | 0 <= i < |f.name| :: !IsSpace(f.name[i]))
              && IsEmail(f.email)
              && (f.password == "" || (Utf16Length(f.password) >= MinPasswordLength && f.confirmPassword == f.password))
    ensures v.errors.name == NameError(f.name)
    ensures v.errors.email == EmailError(f.email)
    ensures f.password == "" ==> v.errors.password == "" && v.errors.confirmPassword == ""
    ensures f.password != "" ==>
              (v.errors.password == PasswordTooShort <==> Utf16Length(f.password) < MinPasswordLength)
    ensures f.password != "" ==>
              (v.errors.confirmPassword == PasswordMismatch <==> f.confirmPassword != f.password)
    ensures v.errors.password == "" || v.errors.password == PasswordTooShort
    ensures v.errors.confirmPassword == "" || v.errors.confirmPassword == PasswordMismatch
  {
    var changing := f.password != "";
    var passwordError := if changing && Utf16Length(f.password) < MinPasswordLength then PasswordTooShort else "";
    var confirmError := if changing && f.password != f.confirmPassword then PasswordMismatch else "";
    var errors := Errors(NameError(f.name), EmailError(f.email), passwordError, confirmError);
    Validation(errors, errors == NoErrors)
  }

  /** `handleSubmit`: nothing is sent for an invalid form or a missing route id;
      the password goes along only when the box is non-empty. */
  function Submit(f: Form, id: Option<string>): (r: Option<UserUpdate>)
    ensures r.Some? <==> Validate(f).valid && id.Some? && id.value != ""
    ensures r.Some? ==>
              r.value.name == f.name && r.value.email == f.email
              && r.value.role == f.role && r.value.isActive == f.isActive
    ensures r.Some? ==> (r.value.password.Some? <==> f.password != "")
    ensures r.Some? && f.password != "" ==> r.value.password == Some(f.password)
  {
    if !Validate(f).valid || id.None? || id.value == "" then None
    else
      var password := if f.password != "" then Some(f.password) else None;
      Some(UserUpdate(f.name, f.email, f.role, f.isActive, password))
  }

  /** With an empty password the confirmation box is ignored entirely. */
  lemma EmptyPasswordIgnoresConfirmation(f: Form, c: string)
    requires f.password == ""
    ensures Validate(f.(confirmPassword := c)) == Validate(f)
  {
  }

  /** With a new password typed, editing accepts exactly what creating accepts. */
  lemma TypedPasswordAgreesWithCreate(f: Form)
    requires f.password != ""
    ensures Validate(f).valid == AddUser.Validate(f).valid
  {
  }

  /** Loading a user with a usable name and e-mail and saving at once sends the
      same user back, without a password. */
  lemma LoadThenSubmit(u: User, id: string)
    requires id != "" && IsEmail(u.email) && exists i | 0 <= i < |u.name| :: !IsSpace(u.name[i])
    ensures Submit(Load(u), Some(id)) == Some(UserUpdate(u.name, u.email, u.role, u.isActive, None))
  {
  }
}

=== FILE: email.dfy ===
/**
 * The e-mail shape both user forms test with `/^[^\s@]+@[^\s@]+\.[^\s@]+$/`
 * (AddUserPage.tsx and EditUserPage.tsx).
 */
module EmailPattern {
  import opened Text

  /** One `[^\s@]+` run: non-empty, with no white space and no '@'. */
  predicate IsPart(p: string) {
    |p| > 0 && forall i | 0 <= i < |p| :: !IsSpace(p[i]) && p[i] != '@'
  }

  function Compose(local: string, host: string, tld: string): string {
    local + "@" + host + "." + tld
  }

  /** The language of the regular expression, read as a concatenation. */
  ghost predicate MatchesPattern(s: string) {
    exists local, host, tld :: IsPart(local) && IsPart(host) && IsPart(tld) && Compose(local, host, tld) == s
  }

  /** Position of the first '@' in `s`, or `|s|` when there is none. */
  function IndexOfAt(s: string): (k: nat)
    ensures k <= |s|
    ensures forall j | 0 <= j < k :: s[j] != '@'
    ensures k < |s| ==> s[k] == '@'
  {
    if |s| == 0 || s[0] == '@' then 0 else 1 + IndexOfAt(s[1..])
  }

  /** The regular-expression test, decided by positions: a first '@' that is
      neither the first nor the last character, no white space anywhere, no
      second '@', and a '.' strictly inside the part after the '@'. */
  predicate IsEmail(s: string) {
    var k := IndexOfAt(s);
    && 0 < k < |s|
    && (forall i | 0 <= i < |s| :: !IsSpace(s[i]))
    && (forall i | k < i < |s| :: s[i] != '@')
    && (exists j | k + 1 < j < |s| - 1 :: s[j] == '.')
  }

  /** The scan accepts exactly the strings the regular expression matches. */
  lemma IsEmailIffMatches(s: string)
    ensures IsEmail(s) <==> MatchesPattern(s)
  {
    if IsEmail(s) {
      var k := IndexOfAt(s);
      var j :| k + 1 < j < |s| - 1 && s[j] == '.';
      var local, host, tld := s[..k], s[k + 1..j], s[j + 1..];
      assert IsPart(local);
      assert IsPart(host);
      assert IsPart(tld);
      assert Compose(local, host, tld) == s;
    }
    if MatchesPattern(s) {
      var local, host, tld :| IsPart(local) && IsPart(host) && IsPart(tld) && Compose(local, host, tld) == s;
      var k := |local|;
      var j := k + 1 + |host|;
      assert s[k] == '@';
      assert forall i | 0 <= i < k :: s[i] == local[i];
      assert IndexOfAt(s) == k;
      assert forall i | k < i < j :: s[i] == host[i - k - 1];
      assert forall i | j < i < |s| :: s[i] == tld[i - j - 1];
      assert s[j] == '.';
    }
  }

  /** An address with no dot after the '@' fails. */
  lemma RejectsExample()
    ensures !IsEmail("ana@tienda")
  {
    assert IndexOfAt("ana@tienda") == 3;
  }
}

=== FILE: envelope.dfy ===
/**
 * Response bodies as the services and lists see them, and the shape
 * normalisation they apply (a bare array, or an array under `data`,
 * `products` or `sales`).
 */
module Envelope {

  /** A decoded JSON body whose entities have type `T`. `Record` is a JSON
      object that is itself an entity (it has none of the envelope keys);
      `Object` is any other JSON object; `Scalar` is a string, number or boolean. */
  datatype Body<T> =
    | Array(items: seq<T>)
    | Record(value: T)
    | Object(fields: map<string, Body<T>>)
    | Null
    | Scalar

  /** What a single-entity lookup yields: the entity, JavaScript's `undefined`
      (element 0 of an empty array), a thrown `TypeError`, a body that is not
      an entity, passed on unchanged, or a new object spread from such a body
      with a `price` key set (`{...body, price: …}`), whose keys are not modelled. */
  datatype Lookup<T> = Found(value: T) | Undefined | Thrown | Opaque(body: Body<T>) | Rebuilt(source: Body<T>)

  /** `Array.isArray(v) ? v : []`. */
  function ArrayOrEmpty<T>(v: Body<T>): seq<T> {
    if v.Array? then v.items else []
  }

  /** Tries each envelope key in turn; the first key present decides, and a
      non-array value under it gives the empty list. */
  function UnderKeys<T>(fields: map<string, Body<T>>, keys: seq<string>): (r: seq<T>)
    ensures r == [] || exists i | 0 <= i < |keys| :: keys[i] in fields && fields[keys[i]] == Array(r)
  {
    if keys == [] then []
    else if keys[0] in fields then ArrayOrEmpty(fields[keys[0]])
    else
      var r := UnderKeys(fields, keys[1..]);
      assert r != [] ==> exists i | 1 <= i < |keys| :: keys[i] in fields && fields[keys[i]] == Array(r) by {
        if r != [] {
          var i :| 0 <= i < |keys[1..]| && keys[1..][i] in fields && fields[keys[1..][i]] == Array(r);
          assert keys[i + 1] == keys[1..][i];
        }
      }
      r
  }

  /** The list a body carries: a bare array as is, an object through its
      envelope keys, anything else (null, a scalar, an entity) as []. */
  function Unwrap<T>(body: Body<T>, keys: seq<string>): (r: seq<T>)
    ensures body.Array? ==> r == body.items
    ensures !body.Array? && !body.Object? ==> r == []
    ensures r == [] || body == Array(r)
            || exists i | 0 <= i < |keys| :: body.Object? && keys[i] in body.fields && body.fields[keys[i]] == Array(r)
  {
    match body
    case Array(xs) => xs
    case Object(f) => UnderKeys(f, keys)
    case _ => []
  }

  /** Wrapping a list in any of the recognised envelopes and unwrapping it gives the list back. */
  lemma {:induction false} WrapUnwrap<T>(xs: seq<T>, keys: seq<string>, k: string)
    requires k in keys
    decreases |keys|
    ensures Unwrap(Array(xs), keys) == xs
    ensures Unwrap(Object(map[k := Array(xs)]), keys) == xs
  {
    var f := map[k := Array(xs)];
    if keys[0] != k {
      assert k in keys[1..];
      WrapUnwrap(xs, keys[1..], k);
    }
  }

  /** When `keys[i]` is the first key present, the value under it alone decides the list. */
  lemma {:induction false} FirstPresentDecides<T>(fields: map<string, Body<T>>, keys: seq<string>, i: nat)
    requires i < |keys| && keys[i] in fields
    requires forall j | 0 <= j < i :: keys[j] !in fields
    ensures UnderKeys(fields, keys) == ArrayOrEmpty(fields[keys[i]])
    decreases i
  {
    if i > 0 {
      assert keys[0] !in fields;
      FirstPresentDecides(fields, keys[1..], i - 1);
    }
  }

  /** `Array.isArray(b) ? b[0] : b`. */
  function FirstOrSelf<T>(body: Body<T>): (r: Lookup<T>)
    ensures body.Array? && body.items != [] ==> r == Found(body.items[0])
    ensures body.Array? && body.items == [] ==> r == Undefined
    ensures body.Record? ==> r == Found(body.value)
    ensures !body.Array? && !body.Record? ==> r == Opaque(body)
  {
    match body
    case Array(xs) => if xs == [] then Undefined else Found(xs[0])
    case Record(v) => Found(v)
    case _ => Opaque(body)
  }
}

=== FILE: form_rules.dfy ===
/**
 * The field rules the four forms share (AddUserPage.tsx, EditUserPage.tsx,
 * AddProductPage.tsx, EditProductPage.tsx): a required name, the e-mail rule
 * and the positive-price rule.
 */
module FormRules {
  import opened Text
  import opened EmailPattern
  import opened Domain

  const NameRequired: string := "El nombre es requerido"
  const EmailRequired: string := "El email es requerido"
  const EmailInvalid: string := "El email no es válido"
  const PriceRequired: string := "El precio es requerido"
  const PriceNotPositive: string := "El precio debe ser un número mayor a 0"

  /** The name rule: required once trimmed. */
  function NameError(name: string): (r: string)
    ensures r == "" <==> exists i | 0 <= i < |name| :: !IsSpace(name[i])
    ensures r != "" ==> r == NameRequired
  {
    BlankIffAllSpace(name);
    if IsBlank(name) then NameRequired else ""
  }

  /** The e-mail rule: "required" when blank once trimmed, else "invalid" unless
      the untrimmed text matches the pattern. */
  function EmailError(email: string): (r: string)
    ensures r == EmailRequired <==> IsBlank(email)
    ensures r == "" <==> IsEmail(email)
    ensures r == "" || r == EmailRequired || r == EmailInvalid
  {
    BlankIffAllSpace(email);
    assert IsEmail(email) ==> !IsSpace(email[0]);
    if IsBlank(email) then EmailRequired
    else if !IsEmail(email) then EmailInvalid
    else ""
  }

  /** The price rule: "required" when empty, else the text must read as a
      number greater than zero. */
  function PriceError(price: string, number: Parser): (r: string)
    ensures r == PriceRequired <==> price == ""
    ensures r == "" <==> price != "" && number(price).Some? && number(price).value > 0
    ensures r == "" || r == PriceRequired || r == PriceNotPositive
  {
    if price == "" then PriceRequired
    else if number(price).None? || number(price).value <= 0 then PriceNotPositive
    else ""
  }
}

=== FILE: new_sale.dfy ===
/**
 * The sale being composed on the new-sale page (NewSalePage.tsx): an ordered
 * list of lines, one per product, with running subtotal and total, and the
 * payload built when the sale is registered.
 */
module NewSale {
  import opened Wrappers
  import opened Text
  import opened Seqs
  import opened Domain

  /** A line of the sale; `unitPrice` is captured when the product is first added. */
  datatype Line = Line(product: Product, quantity: int, unitPrice: int, total: int)

  type Cart = seq<Line>

  /** A line keeps `total = quantity × unitPrice` and at least one unit. */
  predicate LineOk(l: Line) {
    l.quantity >= 1 && l.total == l.quantity * l.unitPrice
  }

  /** Each product appears on at most one line. */
  predicate UniqueIds(c: Cart) {
    forall i, j | 0 <= i < j < |c| :: c[i].product.id != c[j].product.id
  }

  /** The cart invariant the page's operations maintain. */
  predicate Valid(c: Cart) {
    UniqueIds(c) && forall i | 0 <= i < |c| :: LineOk(c[i])
  }

  predicate HasProduct(c: Cart, id: string) {
    exists i | 0 <= i < |c| :: c[i].product.id == id
  }

  /** `saleItems.find(item => item.product.id === id)`, as a position (`|c|` when absent). */
  function IndexOf(c: Cart, id: string): (k: nat)
    ensures k <= |c|
    ensures forall j | 0 <= j < k :: c[j].product.id != id
    ensures k < |c| ==> c[k].product.id == id
    ensures k == |c| <==> !HasProduct(c, id)
  {
    if c == [] then 0
    else if c[0].product.id == id then 0
    else
      var k := 1 + IndexOf(c[1..], id);
      assert forall j | 1 <= j < |c| :: c[j] == c[1..][j - 1];
      k
  }

  /** The ids on the lines, as a set. */
  function Ids(c: Cart): set<string> {
    set i | 0 <= i < |c| :: c[i].product.id
  }

  /** `addProductToSale(p)`: one more unit on the product's line, or a new line
      at the end holding one unit at the product's current price. */
  function AddProduct(c: Cart, p: Product): (r: Cart)
    requires p.price.Num?
    ensures Ids(r) == Ids(c) + {p.id}
    ensures HasProduct(c, p.id) ==> |r| == |c|
    ensures !HasProduct(c, p.id) ==> |r| == |c| + 1 && r[..|c|] == c
  {
    if HasProduct(c, p.id) then
      var r := seq(|c|, i requires 0 <= i < |c| =>
                 if c[i].product.id == p.id
                 then c[i].(quantity := c[i].quantity + 1, total := (c[i].quantity + 1) * c[i].unitPrice)
                 else c[i]);
      assert forall i | 0 <= i < |c| :: r[i].product == c[i].product;
      assert Ids(r) == Ids(c);
      r
    else
      var r := c + [Line(p, 1, p.price.amount, p.price.amount)];
      assert r[|c|].product.id == p.id;
      assert forall i | 0 <= i < |c| :: r[i] == c[i];
      r
  }

  /** `removeProduct(id)`: drops the product's line and keeps the others in order. */
  function RemoveProduct(c: Cart, id: string): (r: Cart)
    ensures IsSubsequence(r, c)
    ensures forall l :: l in r <==> l in c && l.product.id != id
    ensures forall l :: multiset(r)[l] == if l.product.id != id then multiset(c)[l] else 0
    ensures !HasProduct(r, id)
  {
    Filter(c, (l: Line) => l.product.id != id)
  }

  /** `updateQuantity(id, n)`: a quantity of zero or less removes the line;
      otherwise only the product's line changes, to `n` units at its captured price. */
  function UpdateQuantity(c: Cart, id: string, n: int): (r: Cart)
    ensures n <= 0 ==> r == RemoveProduct(c, id)
    ensures n > 0 ==> |r| == |c|
    ensures n > 0 ==> forall i | 0 <= i < |c| ::
              && r[i].product == c[i].product
              && r[i].unitPrice == c[i].unitPrice
              && (c[i].product.id == id ==> r[i].quantity == n && LineOk(r[i]))
              && (c[i].product.id != id ==> r[i] == c[i])
  {
    if n <= 0 then RemoveProduct(c, id)
    else
      seq(|c|, i requires 0 <= i < |c| =>
        if c[i].product.id == id then c[i].(quantity := n, total := n * c[i].unitPrice) else c[i])
  }

  /** `calculateSubtotal`: the sum of the line totals. */
  function Subtotal(c: Cart): (r: int)
    ensures c == [] ==> r == 0
    ensures (forall i | 0 <= i < |c| :: c[i].total >= 0) ==> r >= 0
  {
    if c == [] then 0 else c[0].total + Subtotal(c[1..])
  }

  /** `parseFloat(discount) || 0`: an unparsable discount counts as zero. */
  function DiscountAmount(discount: string, parseFloat: Parser): (r: int)
    ensures parseFloat(discount).None? ==> r == 0
    ensures parseFloat(discount).Some? ==> r == parseFloat(discount).value
  {
    parseFloat(discount).GetOr(0)
  }

  /** `calculateTotal`: the subtotal minus the discount, not clamped at zero. */
  function Total(c: Cart, discount: string, parseFloat: Parser): (r: int)
    ensures r + DiscountAmount(discount, parseFloat) == Subtotal(c)
  {
    Subtotal(c) - DiscountAmount(discount, parseFloat)
  }

  // ---------------------------------------------------------------------------
  // Registering the sale

  datatype SaleItemDto = SaleItemDto(productId: string, quantity: int, unitPrice: int, subtotal: int)

  datatype CreateSaleDto = CreateSaleDto(
    clientName: string,
    saleDate: string,
    paymentMethod: string,
    items: seq<SaleItemDto>,
    subtotal: int,
    discount: int,
    total: int,
    observations: Option<string>)

  datatype SubmitError = EmptyCart | MissingClient

  datatype Submission = Rejected(reason: SubmitError) | Ready(dto: CreateSaleDto)

  function ToItem(l: Line): SaleItemDto {
    SaleItemDto(l.product.id, l.quantity, l.unitPrice, l.total)
  }

  function ToItems(c: Cart): (r: seq<SaleItemDto>)
    ensures |r| == |c|
    ensures forall i | 0 <= i < |c| :: r[i] == ToItem(c[i])
  {
    seq(|c|, i requires 0 <= i < |c| => ToItem(c[i]))
  }

  /** The sum of the item subtotals of a payload. */
  function ItemsSum(items: seq<SaleItemDto>): int {
    if items == [] then 0 else items[0].subtotal + ItemsSum(items[1..])
  }

  /** The payload's items add up to the cart's subtotal. */
  lemma {:induction false} ItemsSumIsSubtotal(c: Cart)
    ensures ItemsSum(ToItems(c)) == Subtotal(c)
  {
    if c != [] {
      assert ToItems(c)[1..] == ToItems(c[1..]);
      ItemsSumIsSubtotal(c[1..]);
    }
  }

  /** `observations.trim() || undefined`. */
  function Observations(text: string): (r: Option<string>)
    ensures r.None? <==> IsBlank(text)
    ensures r.Some? ==> r.value == Trim(text)
  {
    if IsBlank(text) then None else Some(Trim(text))
  }

  /** `handleRegisterSale`: an empty cart or a blank client name is refused
      before anything is sent; otherwise the payload has one item per line and
      totals that agree with its items and its discount. */
  function RegisterSale(c: Cart, clientName: string, saleDate: string, paymentMethod: string,
                        discount: string, observations: string, parseFloat: Parser): (r: Submission)
    ensures c == [] ==> r == Rejected(EmptyCart)
    ensures c != [] && IsBlank(clientName) ==> r == Rejected(MissingClient)
    ensures r.Ready? <==> c != [] && !IsBlank(clientName)
    ensures r.Ready? ==> r.dto.clientName == Trim(clientName) && r.dto.clientName != ""
    ensures r.Ready? ==> r.dto.saleDate == saleDate && r.dto.paymentMethod == paymentMethod
    ensures r.Ready? ==> |r.dto.items| == |c| && forall i | 0 <= i < |c| ::
              r.dto.items[i] == SaleItemDto(c[i].product.id, c[i].quantity, c[i].unitPrice, c[i].total)
    ensures r.Ready? ==> r.dto.subtotal == ItemsSum(r.dto.items) == Subtotal(c)
    ensures r.Ready? ==> r.dto.discount == DiscountAmount(discount, parseFloat)
    ensures r.Ready? ==> r.dto.total == r.dto.subtotal - r.dto.discount == Total(c, discount, parseFloat)
    ensures r.Ready? ==> r.dto.observations == Observations(observations)
  {
    if c == [] then Rejected(EmptyCart)
    else if IsBlank(clientName) then Rejected(MissingClient)
    else
      ItemsSumIsSubtotal(c);
      Ready(CreateSaleDto(
        Trim(clientName), saleDate, paymentMethod, ToItems(c),
        Subtotal(c), DiscountAmount(discount, parseFloat), Total(c, discount, parseFloat),
        Observations(observations)))
  }
}

=== FILE: new_sale_laws.dfy ===
/**
 * What the new-sale operations promise together: the cart invariant is
 * preserved, each operation touches only its product's line, and the subtotal
 * moves by exactly the change in that line.
 */
module NewSaleLaws {
  import opened Wrappers
  import opened Seqs
  import opened Domain
  import opened NewSale

  /** Adding a product already in the cart bumps its line by one unit at the
      captured price; every other line and the order stay as they were. */
  lemma AddExisting(c: Cart, p: Product, k: nat)
    requires Valid(c) && p.price.Num?
    requires k < |c| && c[k].product.id == p.id
    ensures AddProduct(c, p)
            == c[k := c[k].(quantity := c[k].quantity + 1, total := (c[k].quantity + 1) * c[k].unitPrice)]
  {
    assert HasProduct(c, p.id);
    var r := AddProduct(c, p);
    var e := c[k := c[k].(quantity := c[k].quantity + 1, total := (c[k].quantity + 1) * c[k].unitPrice)];
    assert forall i | 0 <= i < |c| && i != k :: c[i].product.id != p.id;
    assert forall i | 0 <= i < |c| :: r[i] == e[i];
  }

  /** Adding a product not in the cart appends one line with one unit at the
      product's price. */
  lemma AddNew(c: Cart, p: Product)
    requires p.price.Num? && !HasProduct(c, p.id)
    ensures AddProduct(c, p) == c + [Line(p, 1, p.price.amount, p.price.amount)]
  {
  }

  /** Adding keeps ids unique and every line total consistent. */
  lemma AddPreservesValid(c: Cart, p: Product)
    requires Valid(c) && p.price.Num?
    ensures Valid(AddProduct(c, p))
  {
    if HasProduct(c, p.id) {
      var k := IndexOf(c, p.id);
      AddExisting(c, p, k);
      var l := c[k];
      assert (l.quantity + 1) * l.unitPrice == l.quantity * l.unitPrice + l.unitPrice;
    }
  }

  /** Setting a quantity keeps the cart invariant. */
  lemma UpdatePreservesValid(c: Cart, id: string, n: int)
    requires Valid(c)
    ensures Valid(UpdateQuantity(c, id, n))
  {
    if n <= 0 {
      RemovePreservesValid(c, id);
    }
  }

  /** Removing keeps the cart invariant. */
  lemma {:induction false} RemovePreservesValid(c: Cart, id: string)
    requires Valid(c)
    ensures Valid(RemoveProduct(c, id))
  {
    var r := RemoveProduct(c, id);
    forall i | 0 <= i < |r|
      ensures LineOk(r[i])
    {
      assert r[i] in c;
    }
    FilterKeepsUnique(c, (l: Line) => l.product.id != id);
  }

  /** The lines after the first of a cart with unique ids have unique ids and
      none shares the first line's product. */
  lemma UniqueTail(c: Cart)
    requires c != [] && UniqueIds(c)
    ensures UniqueIds(c[1..])
    ensures forall l | l in c[1..] :: l.product.id != c[0].product.id
  {
    assert forall i | 0 <= i < |c[1..]| :: c[1..][i] == c[i + 1];
  }

  /** A line whose product is on no line of `s` can go in front of `s`. */
  lemma UniqueCons(x: Line, s: Cart)
    requires UniqueIds(s)
    requires forall l | l in s :: l.product.id != x.product.id
    ensures UniqueIds([x] + s)
  {
    var r := [x] + s;
    forall i, j | 0 <= i < j < |r|
      ensures r[i].product.id != r[j].product.id
    {
      assert r[j] == s[j - 1];
      if i > 0 {
        assert r[i] == s[i - 1];
      } else {
        assert s[j - 1] in s;
      }
    }
  }

  /** A filtered cart keeps each product on at most one line. */
  lemma {:induction false} FilterKeepsUnique(c: Cart, keep: Line -> bool)
    requires UniqueIds(c)
    ensures UniqueIds(Filter(c, keep))
  {
    if c != [] {
      UniqueTail(c);
      FilterKeepsUnique(c[1..], keep);
      var rest := Filter(c[1..], keep);
      assert forall l | l in rest :: l in c[1..];
      if keep(c[0]) {
        UniqueCons(c[0], rest);
      }
    }
  }

  /** Removing distributes over joining two carts. */
  lemma RemoveConcat(a: Cart, b: Cart, id: string)
    ensures RemoveProduct(a + b, id) == RemoveProduct(a, id) + RemoveProduct(b, id)
  {
    FilterConcat(a, b, (l: Line) => l.product.id != id);
  }

  /** In a cart with unique ids, the lines before and after line `k` do not hold its product. */
  lemma OnlyLineWithId(c: Cart, k: nat)
    requires UniqueIds(c) && k < |c|
    ensures !HasProduct(c[..k], c[k].product.id)
    ensures !HasProduct(c[k + 1..], c[k].product.id)
  {
    assert forall i | 0 <= i < k :: c[..k][i] == c[i];
    assert forall i | k + 1 <= i < |c| :: c[k + 1..][i - k - 1] == c[i];
  }

  /** Removing a product deletes exactly its line and keeps the others in order. */
  lemma RemovePresent(c: Cart, k: nat)
    requires Valid(c) && k < |c|
    ensures RemoveProduct(c, c[k].product.id) == c[..k] + c[k + 1..]
  {
    var id := c[k].product.id;
    assert c == c[..k] + ([c[k]] + c[k + 1..]);
    RemoveConcat(c[..k], [c[k]] + c[k + 1..], id);
    RemoveConcat([c[k]], c[k + 1..], id);
    OnlyLineWithId(c, k);
    RemoveAbsent(c[..k], id);
    RemoveAbsent(c[k + 1..], id);
    assert RemoveProduct([c[k]], id) == [];
  }

  /** Removing a product that is not in the cart changes nothing. */
  lemma RemoveAbsent(c: Cart, id: string)
    requires !HasProduct(c, id)
    ensures RemoveProduct(c, id) == c
  {
    FilterKeepsAll(c, (l: Line) => l.product.id != id);
  }

  /** Removing twice is removing once. */
  lemma RemoveIdempotent(c: Cart, id: string)
    ensures RemoveProduct(RemoveProduct(c, id), id) == RemoveProduct(c, id)
  {
    RemoveAbsent(RemoveProduct(c, id), id);
  }

  /** Setting a quantity of zero or less is the same as removing the product. */
  lemma NonPositiveQuantityRemoves(c: Cart, id: string, n: int)
    requires n <= 0
    ensures UpdateQuantity(c, id, n) == RemoveProduct(c, id)
    ensures !HasProduct(UpdateQuantity(c, id, n), id)
  {
  }

  // ---------------------------------------------------------------------------
  // Running totals

  lemma {:induction false} SubtotalConcat(a: Cart, b: Cart)
    ensures Subtotal(a + b) == Subtotal(a) + Subtotal(b)
  {
    if a == [] {
      assert a + b == b;
    } else {
      assert (a + b)[1..] == a[1..] + b;
      SubtotalConcat(a[1..], b);
    }
  }

  /** The subtotal splits around any line. */
  lemma SubtotalSplit(c: Cart, k: nat)
    requires k < |c|
    ensures Subtotal(c) == Subtotal(c[..k]) + c[k].total + Subtotal(c[k + 1..])
  {
    assert c == c[..k] + c[k..];
    SubtotalConcat(c[..k], c[k..]);
    assert c[k..][0] == c[k] && c[k..][1..] == c[k + 1..];
  }

  /** Replacing one line moves the subtotal by the change in that line's total. */
  lemma {:induction false} SubtotalReplace(c: Cart, k: nat, l: Line)
    requires k < |c|
    ensures Subtotal(c[k := l]) == Subtotal(c) - c[k].total + l.total
  {
    if k > 0 {
      assert c[k := l][1..] == c[1..][k - 1 := l];
      SubtotalReplace(c[1..], k - 1, l);
    } else {
      assert c[k := l][1..] == c[1..];
    }
  }

  /** The sum of `quantity × unitPrice` over the lines. */
  function PriceSum(c: Cart): int {
    if c == [] then 0 else c[0].quantity * c[0].unitPrice + PriceSum(c[1..])
  }

  /** In a valid cart the subtotal is the sum of quantity times unit price. */
  lemma {:induction false} SubtotalIsPriceSum(c: Cart)
    requires Valid(c)
    ensures Subtotal(c) == PriceSum(c)
  {
    if c != [] {
      assert LineOk(c[0]);
      assert Valid(c[1..]) by {
        assert forall i | 0 <= i < |c[1..]| :: c[1..][i] == c[i + 1];
      }
      SubtotalIsPriceSum(c[1..]);
    }
  }

  /** One more unit on a well-formed line adds one unit price to its total. */
  lemma BumpedTotal(l: Line)
    requires LineOk(l)
    ensures (l.quantity + 1) * l.unitPrice == l.total + l.unitPrice
  {
  }

  /** Bumping the line at `k` by one unit adds that line's unit price to the subtotal. */
  lemma BumpSubtotal(c: Cart, k: nat)
    requires k < |c| && LineOk(c[k])
    ensures Subtotal(c[k := c[k].(quantity := c[k].quantity + 1, total := (c[k].quantity + 1) * c[k].unitPrice)])
            == Subtotal(c) + c[k].unitPrice
  {
    var l := c[k];
    SubtotalReplace(c, k, l.(quantity := l.quantity + 1, total := (l.quantity + 1) * l.unitPrice));
    BumpedTotal(l);
  }

  /** Adding a product already in the cart raises the subtotal by the unit
      price captured on its line. */
  lemma AddExistingSubtotal(c: Cart, p: Product)
    requires Valid(c) && p.price.Num? && HasProduct(c, p.id)
    ensures Subtotal(AddProduct(c, p)) == Subtotal(c) + c[IndexOf(c, p.id)].unitPrice
  {
    var k := IndexOf(c, p.id);
    AddExisting(c, p, k);
    BumpSubtotal(c, k);
  }

  /** Adding a product not yet in the cart raises the subtotal by its current price. */
  lemma AddNewSubtotal(c: Cart, p: Product)
    requires Valid(c) && p.price.Num? && !HasProduct(c, p.id)
    ensures Subtotal(AddProduct(c, p)) == Subtotal(c) + p.price.amount
  {
    AddNew(c, p);
    SubtotalConcat(c, [Line(p, 1, p.price.amount, p.price.amount)]);
  }

  /** Setting a positive quantity on a line moves the subtotal from the old line
      total to `n × unitPrice`. */
  lemma UpdateSubtotal(c: Cart, k: nat, n: int)
    requires Valid(c) && k < |c| && n > 0
    ensures Subtotal(UpdateQuantity(c, c[k].product.id, n)) == Subtotal(c) - c[k].total + n * c[k].unitPrice
  {
    var id := c[k].product.id;
    var r := UpdateQuantity(c, id, n);
    var l := c[k].(quantity := n, total := n * c[k].unitPrice);
    assert forall i | 0 <= i < |c| && i != k :: c[i].product.id != id;
    assert r == c[k := l];
    SubtotalReplace(c, k, l);
  }

  /** Removing a line takes its total off the subtotal. */
  lemma RemoveSubtotal(c: Cart, k: nat)
    requires Valid(c) && k < |c|
    ensures Subtotal(RemoveProduct(c, c[k].product.id)) == Subtotal(c) - c[k].total
  {
    RemovePresent(c, k);
    SubtotalSplit(c, k);
    SubtotalConcat(c[..k], c[k + 1..]);
  }

  /** The discount is not clamped: one larger than the subtotal makes the total negative. */
  lemma TotalNotClamped(c: Cart, discount: string, parseFloat: Parser)
    requires parseFloat(discount).Some? && parseFloat(discount).value > Subtotal(c)
    ensures Total(c, discount, parseFloat) < 0
  {
  }

  /** Adding the same product twice gives one line with two units. */
  lemma AddTwiceExample(p: Product)
    requires p.price == Num(10000)
    ensures AddProduct(AddProduct([], p), p) == [Line(p, 2, 10000, 20000)]
    ensures Subtotal(AddProduct(AddProduct([], p), p)) == 20000
  {
    var once := AddProduct([], p);
    assert once == [Line(p, 1, 10000, 10000)];
    AddExisting(once, p, 0);
  }

  /** Two products at 5000 and 3000 with a discount of 1000 total 7000. */
  lemma TwoProductsWithDiscountExample(p: Product, q: Product, parseFloat: Parser)
    requires p.price == Num(5000) && q.price == Num(3000) && p.id != q.id
    requires parseFloat("1000") == Some(1000)
    ensures Subtotal(AddProduct(AddProduct([], p), q)) == 8000
    ensures Total(AddProduct(AddProduct([], p), q), "1000", parseFloat) == 7000
  {
    assert AddProduct([], p) == [Line(p, 1, 5000, 5000)];
    AddNew([Line(p, 1, 5000, 5000)], q);
  }
}

=== FILE: product_list.dfy ===
/** The product list screen's filter (ProductList.tsx). */
module ProductList {
  import opened Wrappers
  import opened Text
  import opened Seqs
  import opened Domain

  /** The category option that matches every product. */
  const AnyCategory: string := "all"

  /** The search box: the lower-cased term occurs in the lower-cased name, or
      the raw term occurs in the id (this second test is case-sensitive). */
  predicate MatchesSearch(p: Product, term: string) {
    Contains(Lower(p.name), Lower(term)) || Contains(p.id, term)
  }

  /** The category selector: "all", or exactly the product's category. */
  predicate MatchesCategory(p: Product, category: string) {
    category == AnyCategory || p.category == Some(category)
  }

  predicate Shown(p: Product, term: string, category: string) {
    MatchesSearch(p, term) && MatchesCategory(p, category)
  }

  /** `filteredProducts`: `products?.filter(...) || []`. */
  function FilterProducts(products: Option<seq<Product>>, term: string, category: string): (r: seq<Product>)
    ensures products.None? ==> r == []
    ensures products.Some? ==> IsSubsequence(r, products.value)
    ensures products.Some? ==> forall p :: p in r <==> p in products.value && Shown(p, term, category)
    ensures products.Some? ==>
              forall p :: multiset(r)[p] == if Shown(p, term, category) then multiset(products.value)[p] else 0
  {
    match products
    case None => []
    case Some(ps) => Filter(ps, p => Shown(p, term, category))
  }

  /** A product with no category is hidden by every category other than "all". */
  lemma UncategorisedOnlyUnderAll(products: seq<Product>, term: string, category: string, p: Product)
    requires p.category.None? && category != AnyCategory
    ensures p !in FilterProducts(Some(products), term, category)
  {
  }

  /** An empty search under "all" shows the whole list. */
  lemma EmptySearchShowsAll(products: seq<Product>)
    ensures FilterProducts(Some(products), "", AnyCategory) == products
  {
    forall i | 0 <= i < |products|
      ensures Shown(products[i], "", AnyCategory)
    {
      ContainsEmpty(Lower(products[i].name));
    }
    FilterKeepsAll(products, p => Shown(p, "", AnyCategory));
  }
}

=== FILE: products_service.dfy ===
/**
 * The response handling of the products service (products.service.ts):
 * envelope unwrapping and the conversion of string prices to numbers.
 */
module ProductsService {
  import opened Wrappers
  import opened Domain
  import opened Envelope

  /** The keys `getAll` looks under, in order. */
  const ListKeys: seq<string> := ["data", "products"]

  /** `{...p, price: typeof p.price === 'string' ? parseFloat(p.price) : p.price}`. */
  function NormalizePrice(p: Product, parseFloat: Parser): (r: Product)
    ensures r == p.(price := r.price)
    ensures !r.price.Text?
    ensures !p.price.Text? ==> r == p
    ensures p.price.Text? && parseFloat(p.price.raw).Some? ==> r.price == Num(parseFloat(p.price.raw).value)
    ensures p.price.Text? && parseFloat(p.price.raw).None? ==> r.price == NaN
  {
    match p.price
    case Text(s) =>
      (match parseFloat(s)
       case Some(n) => p.(price := Num(n))
       case None => p.(price := NaN))
    case _ => p
  }

  /** Normalising a price twice is normalising it once. */
  lemma NormalizePriceIdempotent(p: Product, parseFloat: Parser)
    ensures NormalizePrice(NormalizePrice(p, parseFloat), parseFloat) == NormalizePrice(p, parseFloat)
  {
  }

  /** `getAll`: the product list under any accepted envelope, each price normalised. */
  function GetAll(body: Body<Product>, parseFloat: Parser): (r: seq<Product>)
    ensures |r| == |Unwrap(body, ListKeys)|
    ensures forall i | 0 <= i < |r| :: r[i] == NormalizePrice(Unwrap(body, ListKeys)[i], parseFloat)
    ensures forall i | 0 <= i < |r| ::
              r[i] == Unwrap(body, ListKeys)[i].(price := r[i].price) && !r[i].price.Text?
    ensures !body.Array? && !body.Object? ==> r == []
  {
    var xs := Unwrap(body, ListKeys);
    seq(|xs|, i requires 0 <= i < |xs| => NormalizePrice(xs[i], parseFloat))
  }

  /** A list already carrying numeric prices comes back unchanged, whether it
      arrives bare, under `data` or under `products`; `data` wins over `products`. */
  lemma GetAllShapes(xs: seq<Product>, other: Body<Product>, parseFloat: Parser)
    requires forall i | 0 <= i < |xs| :: !xs[i].price.Text?
    ensures GetAll(Array(xs), parseFloat) == xs
    ensures GetAll(Object(map["data" := Array(xs)]), parseFloat) == xs
    ensures GetAll(Object(map["products" := Array(xs)]), parseFloat) == xs
    ensures GetAll(Object(map["data" := Array(xs), "products" := other]), parseFloat) == xs
  {
    WrapUnwrap(xs, ListKeys, "data");
    WrapUnwrap(xs, ListKeys, "products");
    FirstPresentDecides(map["data" := Array(xs), "products" := other], ListKeys, 0);
  }

  /** A `data` key holding anything but an array gives the empty list, even
      when `products` holds one. */
  lemma DataNotArrayGivesEmpty(v: Body<Product>, other: Body<Product>, parseFloat: Parser)
    requires !v.Array?
    ensures GetAll(Object(map["data" := v]), parseFloat) == []
    ensures GetAll(Object(map["data" := v, "products" := other]), parseFloat) == []
  {
    FirstPresentDecides(map["data" := v], ListKeys, 0);
    FirstPresentDecides(map["data" := v, "products" := other], ListKeys, 0);
  }

  /** `getById`: element 0 of an array body, or the body itself, spread into a
      new object with its price normalised; reading `.price` of `undefined` or
      `null` throws. A body that is no entity is rebuilt, never passed on as is. */
  function GetById(body: Body<Product>, parseFloat: Parser): (r: Lookup<Product>)
    ensures r.Thrown? <==> body == Null || body == Array([])
    ensures FirstOrSelf(body).Found? ==> r == Found(NormalizePrice(FirstOrSelf(body).value, parseFloat))
    ensures body.Object? || body.Scalar? ==> r == Rebuilt(body)
    ensures !r.Opaque? && !r.Undefined?
    ensures r.Found? ==> !r.value.price.Text?
  {
    match body
    case Array(xs) => if xs == [] then Thrown else Found(NormalizePrice(xs[0], parseFloat))
    case Record(p) => Found(NormalizePrice(p, parseFloat))
    case Null => Thrown
    case _ => Rebuilt(body)
  }

  /** A product comes back from `getById` with its price normalised, whether
      the API sends it bare or as the head of an array. */
  lemma GetByIdShapes(p: Product, rest: seq<Product>, parseFloat: Parser)
    ensures GetById(Record(p), parseFloat) == Found(NormalizePrice(p, parseFloat))
    ensures GetById(Array([p] + rest), parseFloat) == Found(NormalizePrice(p, parseFloat))
    ensures !p.price.Text? ==> GetById(Record(p), parseFloat) == Found(p)
  {
  }
}

=== FILE: protected_route.dfy ===
/** The route guard (ProtectedRoute.tsx): render, or redirect to login or to the dashboard. */
module ProtectedRoute {
  import opened Wrappers
  import opened Storage
  import AuthUtils

  datatype Role = Admin | User

  /** What `JSON.parse` yields for the stored profile: `null`, or any other
      value with its `role` property (`None` when missing or not a string). */
  datatype Parsed = JsonNull | JsonValue(role: Option<string>)

  /** The JSON parser; `None` is a thrown `SyntaxError`. */
  type JsonParser = string -> Option<Parsed>

  datatype Decision = Render | ToLogin | ToDashboard

  /** The profile parses, and reading its `role` does not throw. */
  predicate ProfileReadable(store: Store, parse: JsonParser) {
    HasValue(store, UserDataKey) && parse(store[UserDataKey]).Some? && parse(store[UserDataKey]).value.JsonValue?
  }

  function ProfileRole(store: Store, parse: JsonParser): Option<string>
    requires ProfileReadable(store, parse)
  {
    parse(store[UserDataKey]).value.role
  }

  /** The guard's decision for a route needing `requiredRole` (none, "admin" or "user"). */
  function Guard(store: Store, requiredRole: Option<Role>, parse: JsonParser): (r: Decision)
    ensures !IsAuthenticated(store) ==> r == ToLogin
    ensures r == ToDashboard <==>
              IsAuthenticated(store) && requiredRole == Some(Admin) && ProfileReadable(store, parse)
              && ProfileRole(store, parse) != Some("admin")
    ensures r == Render <==>
              IsAuthenticated(store)
              && (requiredRole.None?
                  || (ProfileReadable(store, parse)
                      && (requiredRole == Some(User) || ProfileRole(store, parse) == Some("admin"))))
  {
    if !IsAuthenticated(store) then ToLogin
    else if requiredRole.None? then Render
    else if !HasValue(store, UserDataKey) then ToLogin
    else
      match parse(store[UserDataKey])
      case None => ToLogin
      case Some(JsonNull) => ToLogin
      case Some(JsonValue(role)) =>
        if requiredRole.value.Admin? && role != Some("admin") then ToDashboard else Render
  }

  /** An admin-only route is the strictest: whatever it renders, a user route
      renders, and whatever a user route renders, an open route renders. */
  lemma StricterRolesRenderLess(store: Store, parse: JsonParser)
    ensures Guard(store, Some(Admin), parse) == Render ==> Guard(store, Some(User), parse) == Render
    ensures Guard(store, Some(User), parse) == Render ==> Guard(store, None, parse) == Render
  {
  }

  /** The redirect to login does not depend on the profile when there is no token. */
  lemma NoTokenAlwaysLogin(store: Store, role: Option<Role>, parse: JsonParser, parse': JsonParser)
    requires !IsAuthenticated(store)
    ensures Guard(store, role, parse) == Guard(store, role, parse') == ToLogin
  {
  }

  /** A successful development login opens every route that needs no role. */
  lemma LoginOpensUnrestrictedRoutes(store: Store, email: string, password: string, token: string, parse: JsonParser)
    requires AuthUtils.Login(store, email, password, token).Succeeded()
    ensures Guard(AuthUtils.Login(store, email, password, token).store, None, parse) == Render
  {
  }
}

=== FILE: sale_card.dfy ===
/** The status badge of a sale row (SaleCard.tsx). */
module SaleCard {
  import opened Text

  datatype Badge = Badge(caption: string, cls: string)

  const DefaultClass: string := "status-badge--default"

  /** The three statuses the badge knows, lower-cased. */
  predicate IsKnown(lowered: string) {
    lowered == "completed" || lowered == "pending" || lowered == "cancelled"
  }

  /** `getStatusBadge`: a switch on the lower-cased status. */
  function StatusBadge(status: string): (r: Badge)
    ensures Lower(status) == "completed" ==> r == Badge("Completada", "status-badge--completed")
    ensures Lower(status) == "pending" ==> r == Badge("Pendiente", "status-badge--pending")
    ensures Lower(status) == "cancelled" ==> r == Badge("Cancelada", "status-badge--cancelled")
    ensures !IsKnown(Lower(status)) ==> r == Badge(status, DefaultClass)
  {
    match Lower(status)
    case "completed" => Badge("Completada", "status-badge--completed")
    case "pending" => Badge("Pendiente", "status-badge--pending")
    case "cancelled" => Badge("Cancelada", "status-badge--cancelled")
    case _ => Badge(status, DefaultClass)
  }

  /** The default class is used exactly for the unknown statuses, and then the
      caption is the status text as written. */
  lemma DefaultIffUnknown(status: string)
    ensures StatusBadge(status).cls == DefaultClass <==> !IsKnown(Lower(status))
    ensures !IsKnown(Lower(status)) ==> StatusBadge(status).caption == status
  {
  }

  /** Two statuses that lower-case to the same known value get the same badge. */
  lemma KnownDependsOnlyOnLowered(a: string, b: string)
    requires Lower(a) == Lower(b) && IsKnown(Lower(a))
    ensures StatusBadge(a) == StatusBadge(b)
  {
  }

  /** Letter case does not matter: "COMPLETED" and "Completed" read as "completed". */
  lemma AnyCaseExamples()
    ensures StatusBadge("COMPLETED") == Badge("Completada", "status-badge--completed")
    ensures StatusBadge("Pending") == Badge("Pendiente", "status-badge--pending")
    ensures StatusBadge("refunded") == Badge("refunded", DefaultClass)
  {
    assert Lower("COMPLETED") == "completed";
    assert Lower("Pending") == "pending";
    assert Lower("refunded") == "refunded";
  }
}

=== FILE: sales_list.dfy ===
/** The sales list screen (SalesList.tsx): response normalisation and filtering. */
module SalesList {
  import opened Text
  import opened Seqs
  import opened Domain
  import opened Envelope

  /** The keys `fetchSales` looks under, in order. */
  const ListKeys: seq<string> := ["data", "sales"]

  /** The status option that matches every sale. */
  const AnyStatus: string := "Todos"

  /** `fetchSales`: a bare array as is; otherwise `data`, then `sales`; anything else gives []. */
  function FetchSales(body: Body<Sale>): (r: seq<Sale>)
    ensures body.Array? ==> r == body.items
    ensures body.Object? && "data" in body.fields ==> r == ArrayOrEmpty(body.fields["data"])
    ensures body.Object? && "data" !in body.fields && "sales" in body.fields
            ==> r == ArrayOrEmpty(body.fields["sales"])
    ensures body.Object? && "data" !in body.fields && "sales" !in body.fields ==> r == []
    ensures !body.Array? && !body.Object? ==> r == []
  {
    if body.Object? && "data" in body.fields then
      FirstPresentDecides(body.fields, ListKeys, 0);
      Unwrap(body, ListKeys)
    else if body.Object? && "sales" in body.fields then
      FirstPresentDecides(body.fields, ListKeys, 1);
      Unwrap(body, ListKeys)
    else
      Unwrap(body, ListKeys)
  }

  /** The search box: the lower-cased term occurs in the lower-cased sale number or id. */
  predicate MatchesSearch(s: Sale, term: string) {
    Contains(Lower(s.saleNumber), Lower(term)) || Contains(Lower(s.id), Lower(term))
  }

  /** The status selector: "Todos", or exactly the sale's status. */
  predicate MatchesStatus(s: Sale, status: string) {
    status == AnyStatus || s.status == status
  }

  predicate Shown(s: Sale, term: string, status: string) {
    MatchesSearch(s, term) && MatchesStatus(s, status)
  }

  /** `filteredSales`: the sales passing both the search and the status filter, in list order. */
  function FilterSales(sales: seq<Sale>, term: string, status: string): (r: seq<Sale>)
    ensures IsSubsequence(r, sales)
    ensures forall s :: s in r <==> s in sales && Shown(s, term, status)
    ensures forall s :: multiset(r)[s] == if Shown(s, term, status) then multiset(sales)[s] else 0
  {
    Filter(sales, s => Shown(s, term, status))
  }

  /** An empty search with "Todos" shows the whole list. */
  lemma EmptySearchShowsAll(sales: seq<Sale>)
    ensures FilterSales(sales, "", AnyStatus) == sales
  {
    forall i | 0 <= i < |sales|
      ensures Shown(sales[i], "", AnyStatus)
    {
      ContainsEmpty(Lower(sales[i].saleNumber));
    }
    FilterKeepsAll(sales, s => Shown(s, "", AnyStatus));
  }

  /** The search ignores the letter case of the term. */
  lemma SearchIgnoresTermCase(sales: seq<Sale>, term: string, status: string)
    ensures FilterSales(sales, Lower(term), status) == FilterSales(sales, term, status)
  {
    LowerIdempotent(term);
    FilterAgree(sales, s => Shown(s, Lower(term), status), s => Shown(s, term, status));
  }
}

=== FILE: sales_service.dfy ===
/** The response handling of the sales service (sales.service.ts). */
module SalesService {
  import opened Domain
  import opened Envelope

  /** A body that is a sale object is that sale; any other value is passed on as is. */
  function AsSale(b: Body<Sale>): (r: Lookup<Sale>)
    ensures r.Found? <==> b.Record?
    ensures r.Found? ==> r.value == b.value
    ensures !r.Found? ==> r == Opaque(b)
  {
    if b.Record? then Found(b.value) else Opaque(b)
  }

  /** `getById`: element 0 of an array body, else the body itself. */
  function GetById(body: Body<Sale>): (r: Lookup<Sale>)
    ensures body.Array? ==> (if body.items == [] then r == Undefined else r == Found(body.items[0]))
    ensures !body.Array? ==> r == AsSale(body)
  {
    FirstOrSelf(body)
  }

  /** The sale comes back from `getById` whether the API sends it bare or as
      the head of an array, and an empty array gives `undefined`. */
  lemma GetByIdShapes(s: Sale, rest: seq<Sale>)
    ensures GetById(Record(s)) == Found(s)
    ensures GetById(Array([s] + rest)) == Found(s)
    ensures GetById(Array([])) == Undefined
  {
  }

  /** `create`: the value under `data` of an object body, element 0 of an array
      body, and any other body unchanged. */
  function Create(body: Body<Sale>): (r: Lookup<Sale>)
    ensures body.Object? && "data" in body.fields ==> r == AsSale(body.fields["data"])
    ensures body.Object? && "data" !in body.fields ==> r == Opaque(body)
    ensures body.Array? ==> (if body.items == [] then r == Undefined else r == Found(body.items[0]))
    ensures !body.Object? && !body.Array? ==> r == AsSale(body)
  {
    match body
    case Object(f) => if "data" in f then AsSale(f["data"]) else Opaque(body)
    case Array(xs) => if xs == [] then Undefined else Found(xs[0])
    case _ => AsSale(body)
  }

  /** The created sale is recovered whichever way the API wraps it: bare, as
      the head of an array, or under `data` next to any other keys. */
  lemma CreateShapes(s: Sale, rest: seq<Sale>, fields: map<string, Body<Sale>>)
    ensures Create(Record(s)) == Found(s)
    ensures Create(Array([s] + rest)) == Found(s)
    ensures Create(Object(fields["data" := Record(s)])) == Found(s)
  {
  }

  /** For an object body only the `data` value matters. */
  lemma CreateDependsOnlyOnData(f: map<string, Body<Sale>>, g: map<string, Body<Sale>>)
    requires "data" in f && "data" in g && f["data"] == g["data"]
    ensures Create(Object(f)) == Create(Object(g))
  {
  }
}

=== FILE: seqs.dfy ===
/** `Array.prototype.filter` and the order-preservation it promises. */
module Seqs {

  /** `a` is `b` with some elements dropped and the others kept in order. */
  predicate IsSubsequence<T(==)>(a: seq<T>, b: seq<T>)
    decreases |b|
  {
    if a == [] then true
    else if b == [] then false
    else if a[0] == b[0] then IsSubsequence(a[1..], b[1..])
    else IsSubsequence(a, b[1..])
  }

  /** Putting an element in front of `b` keeps every subsequence of `b` a subsequence. */
  lemma {:induction false} SubsequenceCons<T>(a: seq<T>, x: T, b: seq<T>)
    requires IsSubsequence(a, b)
    ensures IsSubsequence(a, [x] + b)
    decreases |b|, 1
  {
    var xb := [x] + b;
    assert xb[1..] == b;
    if a != [] && a[0] == x {
      // the greedy match takes `x` for a[0]; the rest of `a` still embeds in `b`
      SubsequenceTail(a, b);
    }
  }

  /** Dropping the first element of a subsequence keeps it a subsequence of the same sequence. */
  lemma {:induction false} SubsequenceTail<T>(a: seq<T>, b: seq<T>)
    requires a != [] && IsSubsequence(a, b)
    ensures IsSubsequence(a[1..], b)
    decreases |b|, 0
  {
    assert b != [];
    if a[0] == b[0] {
      assert IsSubsequence(a[1..], b[1..]);
      SubsequenceCons(a[1..], b[0], b[1..]);
      assert [b[0]] + b[1..] == b;
    } else {
      SubsequenceTail(a, b[1..]);
      SubsequenceCons(a[1..], b[0], b[1..]);
      assert [b[0]] + b[1..] == b;
    }
  }

  /** The elements of `s` that satisfy `keep`, in their original order. */
  function Filter<T(==,!new)>(s: seq<T>, keep: T -> bool): (r: seq<T>)
    ensures |r| <= |s|
    ensures forall i | 0 <= i < |r| :: keep(r[i])
    ensures forall x :: x in r <==> x in s && keep(x)
    ensures IsSubsequence(r, s)
    ensures forall x :: multiset(r)[x] == if keep(x) then multiset(s)[x] else 0
  {
    if s == [] then []
    else
      var rest := Filter(s[1..], keep);
      assert s == [s[0]] + s[1..];
      if keep(s[0]) then
        assert ([s[0]] + rest)[1..] == rest;
        [s[0]] + rest
      else
        SubsequenceCons(rest, s[0], s[1..]);
        rest
  }

  /** When every element is kept, the filter changes nothing. */
  lemma {:induction false} FilterKeepsAll<T(!new)>(s: seq<T>, keep: T -> bool)
    requires forall i | 0 <= i < |s| :: keep(s[i])
    ensures Filter(s, keep) == s
  {
    if s != [] {
      FilterKeepsAll(s[1..], keep);
      assert [s[0]] + s[1..] == s;
    }
  }

  /** Filters with predicates that agree on every element of `s` give the same result. */
  lemma {:induction false} FilterAgree<T(!new)>(s: seq<T>, p: T -> bool, q: T -> bool)
    requires forall i | 0 <= i < |s| :: p(s[i]) == q(s[i])
    ensures Filter(s, p) == Filter(s, q)
  {
    if s != [] {
      FilterAgree(s[1..], p, q);
    }
  }

  /** Filtering distributes over concatenation. */
  lemma {:induction false} FilterConcat<T(!new)>(a: seq<T>, b: seq<T>, keep: T -> bool)
    ensures Filter(a + b, keep) == Filter(a, keep) + Filter(b, keep)
  {
    if a == [] {
      assert a + b == b;
    } else {
      assert (a + b)[1..] == a[1..] + b;
      FilterConcat(a[1..], b, keep);
    }
  }
}

=== FILE: storage.dfy ===
/** The browser's `localStorage` as a finite map from key to string, and the keys the console uses. */
module Storage {

  type Store = map<string, string>

  const TokenKey: string := "authToken"
  const EmailKey: string := "userEmail"
  const NameKey: string := "userName"
  const UserDataKey: string := "userData"

  /** `localStorage.getItem('authToken') !== null`: presence alone counts, so an empty token passes. */
  predicate IsAuthenticated(store: Store) {
    TokenKey in store
  }

  /** `getItem(k) || ''`: the stored value, or "" when the key is absent. */
  function GetOrEmpty(store: Store, k: string): (r: string)
    ensures k in store ==> r == store[k]
    ensures k !in store ==> r == ""
  {
    if k in store then store[k] else ""
  }

  /** Truthiness of `getItem(k)`: present and non-empty. */
  predicate HasValue(store: Store, k: string) {
    k in store && store[k] != ""
  }
}

=== FILE: text.dfy ===
/**
 * The string primitives the forms and lists rely on: `String.prototype.trim`,
 * `toLowerCase` (ASCII letters only) and `includes`.
 */
module Text {

  /** ECMAScript WhiteSpace and LineTerminator code points: the set that the
      regular-expression class `\s` matches and that `trim` strips. */
  predicate IsSpace(c: char) {
    || c == '\t' || c == '\n' || c == '\U{000B}' || c == '\U{000C}' || c == '\r'
    || c == ' ' || c == '\U{00A0}' || c == '\U{1680}'
    || ('\U{2000}' <= c <= '\U{200A}')
    || c == '\U{2028}' || c == '\U{2029}' || c == '\U{202F}' || c == '\U{205F}'
    || c == '\U{3000}' || c == '\U{FEFF}'
  }

  /** Every character of `s[lo..hi]` is white space. */
  ghost predicate SpaceBetween(s: string, lo: int, hi: int)
    requires 0 <= lo && hi <= |s|
  {
    forall i | lo <= i < hi :: IsSpace(s[i])
  }

  /** `t` occurs in `s` starting at position `i`. */
  ghost predicate OccursAt(s: string, t: string, i: int) {
    0 <= i && i + |t| <= |s| && s[i..i + |t|] == t
  }

  /** How many white-space characters `s` starts with. */
  function LeadingSpace(s: string): (k: nat)
    ensures k <= |s|
    ensures SpaceBetween(s, 0, k)
    ensures k < |s| ==> !IsSpace(s[k])
  {
    if |s| > 0 && IsSpace(s[0]) then 1 + LeadingSpace(s[1..]) else 0
  }

  /** Where the white space that `s` ends with begins. */
  function TrailingSpaceStart(s: string): (k: nat)
    ensures k <= |s|
    ensures SpaceBetween(s, k, |s|)
    ensures k > 0 ==> !IsSpace(s[k - 1])
  {
    if |s| > 0 && IsSpace(s[|s| - 1]) then TrailingSpaceStart(s[..|s| - 1]) else |s|
  }

  /** `s.trim()`: the infix of `s` left once white space is stripped from both
      ends; it neither starts nor ends with white space. */
  function Trim(s: string): (r: string)
    ensures exists k :: OccursAt(s, r, k) && SpaceBetween(s, 0, k) && SpaceBetween(s, k + |r|, |s|)
    ensures r == [] || (!IsSpace(r[0]) && !IsSpace(r[|r| - 1]))
  {
    var a := LeadingSpace(s);
    var b := TrailingSpaceStart(s);
    if a < b then
      assert OccursAt(s, s[a..b], a);
      s[a..b]
    else
      assert OccursAt(s, [], 0);
      []
  }

  /** JavaScript's `!s.trim()`: the string is empty once trimmed. */
  predicate IsBlank(s: string) {
    Trim(s) == []
  }

  /** A string is blank exactly when every character is white space. */
  lemma BlankIffAllSpace(s: string)
    ensures IsBlank(s) <==> SpaceBetween(s, 0, |s|)
  {
    var a := LeadingSpace(s);
    var b := TrailingSpaceStart(s);
    if !SpaceBetween(s, 0, |s|) {
      var i :| 0 <= i < |s| && !IsSpace(s[i]);
      assert a <= i < b;
    }
  }

  /** JavaScript's `length`: the number of UTF-16 code units, two for a
      character outside the Basic Multilingual Plane and one for any other. */
  function Utf16Length(s: string): (n: nat)
    ensures |s| <= n <= 2 * |s|
    ensures n == |s| <==> forall i | 0 <= i < |s| :: s[i] as int < 0x1_0000
  {
    if s == [] then 0
    else
      assert forall i | 1 <= i < |s| :: s[1..][i - 1] == s[i];
      (if s[0] as int < 0x1_0000 then 1 else 2) + Utf16Length(s[1..])
  }

  /** One character takes two code units outside the Basic Multilingual Plane and one inside it. */
  lemma Utf16LengthChar(c: char)
    ensures Utf16Length([c]) == if c as int < 0x1_0000 then 1 else 2
  {
    assert [c][1..] == [];
  }

  /** The UTF-16 length of a concatenation is the sum of the lengths, so
      together with `Utf16LengthChar` it fixes the count character by character. */
  lemma {:induction false} Utf16LengthConcat(a: string, b: string)
    ensures Utf16Length(a + b) == Utf16Length(a) + Utf16Length(b)
    decreases |a|
  {
    if a == [] {
      assert a + b == b;
    } else {
      assert (a + b)[0] == a[0];
      assert (a + b)[1..] == a[1..] + b;
      Utf16LengthConcat(a[1..], b);
    }
  }

  /** "a" followed by an emoji has JavaScript length 3. */
  lemma Utf16LengthExample()
    ensures Utf16Length("a\U{1F600}") == 3
  {
    assert "a\U{1F600}" == "a" + "\U{1F600}";
    Utf16LengthConcat("a", "\U{1F600}");
    Utf16LengthChar('a');
    Utf16LengthChar('\U{1F600}');
  }

  /** `toLowerCase` on one character, for the ASCII letters. */
  function LowerChar(c: char): (r: char)
    ensures 'A' <= c <= 'Z' ==> 'a' <= r <= 'z'
    ensures !('A' <= c <= 'Z') ==> r == c
  {
    if 'A' <= c <= 'Z' then (c as int + 32) as char else c
  }

  /** `s.toLowerCase()`, for the ASCII letters. */
  function Lower(s: string): (r: string)
    ensures |r| == |s|
    ensures forall i | 0 <= i < |s| :: r[i] == LowerChar(s[i])
  {
    seq(|s|, i requires 0 <= i < |s| => LowerChar(s[i]))
  }

  /** Lower-casing twice is lower-casing once, and the result has no upper-case ASCII letter. */
  lemma LowerIdempotent(s: string)
    ensures Lower(Lower(s)) == Lower(s)
    ensures forall i | 0 <= i < |s| :: !('A' <= Lower(s)[i] <= 'Z')
  {
  }

  /** `s.includes(t)`, scanning `s` from the left. */
  function Contains(s: string, t: string): bool
    decreases |s|
  {
    if |t| > |s| then false
    else if s[..|t|] == t then true
    else Contains(s[1..], t)
  }

  /** The scan finds `t` exactly when `t` occurs at some position of `s`. */
  lemma {:induction false} ContainsIffOccurs(s: string, t: string)
    ensures Contains(s, t) <==> exists i :: OccursAt(s, t, i)
    decreases |s|
  {
    if |t| > |s| {
      assert forall i :: !OccursAt(s, t, i);
    } else if s[..|t|] == t {
      assert OccursAt(s, t, 0);
    } else {
      ContainsIffOccurs(s[1..], t);
      if Contains(s[1..], t) {
        var i :| OccursAt(s[1..], t, i);
        assert s[1..][i..i + |t|] == s[i + 1..i + 1 + |t|];
        assert OccursAt(s, t, i + 1);
      }
      if exists i :: OccursAt(s, t, i) {
        var i :| OccursAt(s, t, i);
        assert i != 0;
        assert s[1..][i - 1..i - 1 + |t|] == s[i..i + |t|];
        assert OccursAt(s[1..], t, i - 1);
      }
    }
  }

  /** The empty string occurs in every string, so an empty search term matches everything. */
  lemma ContainsEmpty(s: string)
    ensures Contains(s, [])
  {
    assert s[..0] == [];
  }

  /** Every string contains itself. */
  lemma ContainsSelf(s: string)
    ensures Contains(s, s)
  {
    assert s[..|s|] == s;
  }
}

=== FILE: user_form.dfy ===
/**
 * What the add-user and edit-user pages share (AddUserPage.tsx,
 * EditUserPage.tsx): the form and error records, the field-change handler and
 * the minimum password length.
 */
module UserForm {

  datatype Form = Form(
    name: string,
    email: string,
    password: string,
    confirmPassword: string,
    role: string,
    isActive: bool)

  /** One message per validated field; "" means no error. */
  datatype Errors = Errors(name: string, email: string, password: string, confirmPassword: string)

  const NoErrors: Errors := Errors("", "", "", "")

  datatype Validation = Validation(errors: Errors, valid: bool)

  const PasswordTooShort: string := "La contraseña debe tener al menos 6 caracteres"
  const PasswordMismatch: string := "Las contraseñas no coinciden"

  /** The minimum password length both pages enforce. */
  const MinPasswordLength: nat := 6

  /** The fields edited through a text input or a select. */
  datatype TextField = Name | Email | Password | ConfirmPassword | Role

  /** An input event: a text or select value, or the `isActive` checkbox. */
  datatype Change = Typed(field: TextField, value: string) | Toggled(checked: bool)

  datatype State = State(form: Form, errors: Errors)

  function Get(f: Form, t: TextField): string {
    match t
    case Name => f.name
    case Email => f.email
    case Password => f.password
    case ConfirmPassword => f.confirmPassword
    case Role => f.role
  }

  /** The error shown under a field; `role` has none. */
  function ErrorOf(e: Errors, t: TextField): string {
    match t
    case Name => e.name
    case Email => e.email
    case Password => e.password
    case ConfirmPassword => e.confirmPassword
    case Role => ""
  }

  /** `handleChange` of both user pages (AddUserPage.tsx and EditUserPage.tsx,
      which behave alike): stores the new value (a boolean for the checkbox) and
      clears the error of that field only. */
  function HandleChange(st: State, ch: Change): (r: State)
    ensures ch.Typed? ==> Get(r.form, ch.field) == ch.value && r.form.isActive == st.form.isActive
    ensures ch.Typed? ==> forall t | t != ch.field :: Get(r.form, t) == Get(st.form, t)
    ensures ch.Toggled? ==> r.form == st.form.(isActive := ch.checked)
    ensures ch.Typed? ==> ErrorOf(r.errors, ch.field) == ""
    ensures forall t | ch.Toggled? || t != ch.field :: ErrorOf(r.errors, t) == ErrorOf(st.errors, t)
  {
    match ch
    case Toggled(c) => State(st.form.(isActive := c), st.errors)
    case Typed(t, v) =>
      match t
      case Name => State(st.form.(name := v), st.errors.(name := ""))
      case Email => State(st.form.(email := v), st.errors.(email := ""))
      case Password => State(st.form.(password := v), st.errors.(password := ""))
      case ConfirmPassword => State(st.form.(confirmPassword := v), st.errors.(confirmPassword := ""))
      case Role => State(st.form.(role := v), st.errors)
  }

  /** Every error slot is reached by `ErrorOf`, so an edit that clears the
      edited field's error leaves the record error-free when it was the only one. */
  lemma ClearingLastError(st: State, t: TextField, v: string)
    requires forall u | u != t :: ErrorOf(st.errors, u) == ""
    ensures HandleChange(st, Typed(t, v)).errors == NoErrors
  {
    assert ErrorOf(st.errors, Name) == "" || t == Name;
    assert ErrorOf(st.errors, Email) == "" || t == Email;
    assert ErrorOf(st.errors, Password) == "" || t == Password;
    assert ErrorOf(st.errors, ConfirmPassword) == "" || t == ConfirmPassword;
  }
}

=== FILE: users_list.dfy ===
/** The users list screen (UsersList.tsx): response normalisation and search. */
module UsersList {
  import opened Text
  import opened Seqs
  import opened Domain
  import opened Envelope

  /** `fetchUsers`: a bare array as is; an array under `data`; anything else gives []. */
  function FetchUsers(body: Body<User>): (r: seq<User>)
    ensures body.Array? ==> r == body.items
    ensures body.Object? && "data" in body.fields ==> r == ArrayOrEmpty(body.fields["data"])
    ensures body.Object? && "data" !in body.fields ==> r == []
    ensures !body.Array? && !body.Object? ==> r == []
  {
    Unwrap(body, ["data"])
  }

  /** The search box: the lower-cased term occurs in the lower-cased name, e-mail or role. */
  predicate MatchesSearch(u: User, term: string) {
    var t := Lower(term);
    Contains(Lower(u.name), t) || Contains(Lower(u.email), t) || Contains(Lower(u.role), t)
  }

  /** `filteredUsers`. */
  function FilterUsers(users: seq<User>, term: string): (r: seq<User>)
    ensures IsSubsequence(r, users)
    ensures forall u :: u in r <==> u in users && MatchesSearch(u, term)
    ensures forall u :: multiset(r)[u] == if MatchesSearch(u, term) then multiset(users)[u] else 0
  {
    Filter(users, u => MatchesSearch(u, term))
  }

  /** An empty search keeps every user, in order. */
  lemma EmptySearchKeepsAll(users: seq<User>)
    ensures FilterUsers(users, "") == users
  {
    forall i | 0 <= i < |users|
      ensures MatchesSearch(users[i], "")
    {
      ContainsEmpty(Lower(users[i].name));
    }
    FilterKeepsAll(users, u => MatchesSearch(u, ""));
  }

  /** A user whose role is the term, in any letter case, is always found. */
  lemma RoleSearchFindsUser(users: seq<User>, u: User)
    requires u in users
    ensures u in FilterUsers(users, u.role)
  {
    ContainsSelf(Lower(u.role));
  }
}

=== FILE: wrappers.dfy ===
/** Optional values, used for JavaScript's `null`/`undefined` and for a parse that yields `NaN`. */
module Wrappers {

  datatype Option<+T> = None | Some(value: T) {

    /** The value held, or `default` when there is none (JavaScript's `x || default` on an optional). */
    function GetOr(default: T): (r: T)
      ensures Some? ==> r == value
      ensures None? ==> r == default
    {
      match this
      case Some(v) => v
      case None => default
    }
  }
}
